=== FILE: README.md ===
# Ullage simulator

A Dafny model of the `UllageSimulator` of RealFuels. The simulator runs once per propellant tank. It tracks where the ullage sits: the gas above or around the liquid propellant. The ullage is kept as a box of heights `[heightMin, heightMax]` and radii `[radialMin, radialMax]` in tank-relative units.

Each tick (`Update`) does three things:

1. When the tank is nearly undisturbed, it relaxes the box towards the rest box `(0.05, 0.95, 0, 0.95)` (natural diffusion).
2. It applies four clamped deformation steps: axial and sideways translation, yaw/pitch and roll.
3. It derives a stability score in `[0, 1]` from the box and the fill ratio.

From the stability score the simulator derives:

- the ignition probability: the stability, rounded up to 1 from 0.996, raised to a configured power;
- a six-tier status label, cached with a 0.0005 hysteresis;
- a three-colour classification.

The four bounds and the timestamp are saved to and loaded from a node.

The model is functional:

- The simulator is an immutable `Simulator` record, and every operation returns a new one.
- The tunables of the global `RFSettings` instance are a `Settings` record.
- The universal-time clock is an `Option<real>` argument: `None` when there is no planetarium.
- Numbers are mathematical reals.
- `Math.Sqrt` and `Math.Pow` are function-valued fields of a `Numerics` record. The only facts assumed about them are stated where they are used.

Modules:

- `UtilMath`: clamps, interpolation, vectors and the abstract numerics.
- `Settings`: the tunables.
- `UllageState`: the record, the constructors, `Reset`, `Save` and `Load`.
- `UllageUpdate`: one tick.
- `UllageStatus`: probability, tier, colour and hysteresis.
- `UllageProofs`: properties over single ticks and over runs of ticks.

Facts about the code that the proofs bring out:

- **Yaw/pitch.** The code adds the yaw/pitch amount to a height bound below its midpoint and subtracts it from one above. With a non-negative coefficient, each height bound therefore moves *towards* its midpoint (0.45 for the lower bound, 0.55 for the upper) and is clamped to its own side (`RotateYawPitchTowardMidpoints`). The radial range widens.
- **Sideways translation.** The code widens the height range and shifts both radial bounds *outwards* by the same amount, so the radial range moves rather than widens.
- **Roll.** The code widens the height range and shifts both radial bounds *inwards* by the same amount.
- **Ordering.** The code keeps the box ordered only under four assumptions:
  - the widening coefficients are non-negative;
  - the fuel ratio factor is non-negative;
  - the diffusion factor lies in `[0, 1]`;
  - no time runs backwards.

  A clock reading behind the stored timestamp gives a negative elapsed time and a negative diffusion factor. Interpolation then extrapolates away from rest, and the clamps can put the lower height bound above the upper one: `BackwardTimeUnordersBox` takes the ordered box with heights (0.5, 0.5) to heights (0.9, 0.1).
- **Convergence.** Quiet ticks drive the box towards rest under settled diffusion settings, a positive fuel ratio factor, no time running backwards and `sqrt(0) = 0`.
- **Stability after a quiet tick.** Stability does not stay put on a quiet tick from the default state. The constructor's stability is 1, but the tick leaves the rest box, whose lower bounds (0.05 and 0) are far below 0.3; its stability is at most 0.25 (`QuietTickFromRestDropsStability`).

## Model

| member | source | states |
|---|---|---|
| UllageState.Initial | Source/Ullage/UllageSimulator.cs:32-38 | Before any constructor body: stability 1, remembered stability -1, label "very stable" without a probability, timestamp the least double, and the all-zero box, which is ordered but outside the legal intervals |
| UllageState.New | Source/Ullage/UllageSimulator.cs:32-52 | The parameterless constructor installs exactly the rest box `(0.05, 0.95, 0, 0.95)`, which is legal and ordered, and keeps stability 1, remembered stability -1, the "very stable" label without a probability and the least-double timestamp |
| UllageState.NewForPart | Source/Ullage/UllageSimulator.cs:32-57 | The part-name constructor does not reset: all four bounds are 0, so the box is ordered but outside the legal intervals; stability 1, remembered stability -1, the "very stable" label without a probability and the least-double timestamp |
| UllageState.Reset | Source/Ullage/UllageSimulator.cs:85-89 | Installs the rest box, which is legal and ordered, and leaves stability, remembered stability, label and timestamp alone |
| UllageState.ResetIdempotent | Source/Ullage/UllageSimulator.cs:85-89 | Resetting twice is resetting once, and gives the parameterless constructor's box |
| UllageState.Save | Source/Ullage/UllageSimulator.cs:76-83 | The node holds exactly the five persisted keys, each mapped to its field |
| UllageState.Load | Source/Ullage/UllageSimulator.cs:59-75 | A missing node changes nothing; each present key overwrites its field; each absent key keeps the current value; stability and label are never touched |
| UllageState.LoadSave | Source/Ullage/UllageSimulator.cs:59-83 | Loading a saved node into any simulator restores the four bounds and the timestamp; loading it into the saved simulator gives it back unchanged |
| UllageState.LoadWithoutKeys | Source/Ullage/UllageSimulator.cs:61-67 | A node without any persisted key, such as an empty node, changes nothing |
| UllageState.LoadOnlyHeightMin | Source/Ullage/UllageSimulator.cs:63-67 | A node holding only the lower height bound changes that bound and nothing else |
| UllageState.LoadIdempotent | Source/Ullage/UllageSimulator.cs:59-75 | Loading the same node a second time changes nothing more |
| UllageUpdate.ElapsedTime | Source/Ullage/UllageSimulator.cs:93-99 | With a clock, the elapsed time runs from the stored timestamp to the reading, and the reading becomes the new timestamp; without a clock, the elapsed time is the caller's time step and the timestamp stays |
| UllageUpdate.Tick.FuelRatioFactor | Source/Ullage/UllageSimulator.cs:101 | The fuel ratio factor is positive exactly when the fuel ratio exceeds -0.5, and zero exactly at -0.5 |
| UllageUpdate.DiffusionApplies | Source/Ullage/UllageSimulator.cs:104-118 | Natural diffusion never runs while the venting acceleration exceeds its threshold, nor with a zero acceleration threshold |
| UllageUpdate.DiffusionThresholdSign | Source/Ullage/UllageSimulator.cs:105-106 | The acceleration threshold is squared before the comparison, so negating it never changes whether diffusion runs |
| UllageUpdate.VentingConst | Source/Ullage/UllageSimulator.cs:120 | The diffusion strength never exceeds 1 |
| UllageUpdate.VentingConstNonNegative | Source/Ullage/UllageSimulator.cs:120 | With venting at most a positive threshold, a positive fuel ratio factor and a non-negative elapsed time, the diffusion strength lies in `[0, 1]` |
| UllageUpdate.Diffuse | Source/Ullage/UllageSimulator.cs:121-124 | Each bound's distance to its rest value is scaled by one minus its factor: the heights use the Y rate, the radii the X rate |
| UllageUpdate.DiffuseMovesToward | Source/Ullage/UllageSimulator.cs:121-124 | With factors in `[0, 1]`, each bound ends between where it was and its rest value |
| UllageUpdate.DiffusePreservesBox | Source/Ullage/UllageSimulator.cs:121-124 | With factors in `[0, 1]`, diffusion keeps an ordered box ordered and a legal box legal |
| UllageUpdate.DiffusionStep | Source/Ullage/UllageSimulator.cs:118-125 | Outside the venting and acceleration thresholds, the box is left unchanged |
| UllageUpdate.Shift | Source/Ullage/UllageSimulator.cs:130-133 | A clamped step: the result is legal; ordered amounts keep an ordered box ordered; zero amounts leave a legal box alone; on a legal box each bound moves in the direction of its own amount, or stays |
| UllageUpdate.AccelerationAmount | Source/Ullage/UllageSimulator.cs:111 | The acceleration amount is zero without acceleration or with a zero time step; for a positive time step its axial component has the sign of the axial acceleration |
| UllageUpdate.AxialHeightFactor | Source/Ullage/UllageSimulator.cs:129 | The height shift vanishes without axial movement; with a non-negative Y coefficient and a non-negative fuel ratio factor it has the sign of the axial acceleration amount |
| UllageUpdate.AxialRadialFactor | Source/Ullage/UllageSimulator.cs:128 | The radial slosh is non-negative for a non-negative coefficient and fuel ratio factor, and vanishes without axial acceleration |
| UllageUpdate.TranslateAxial | Source/Ullage/UllageSimulator.cs:127-133 | The result is legal from any box; both height bounds of a legal box move with the sign of the axial height factor; with a non-negative X coefficient and a non-negative fuel ratio factor it keeps order and only widens the radial range; without axial acceleration it leaves a legal box alone |
| UllageUpdate.SideFactor | Source/Ullage/UllageSimulator.cs:136-137 | The planar acceleration magnitude times the fuel ratio factor is non-negative for a non-negative fuel ratio factor, and zero without acceleration given `sqrt(0) = 0` |
| UllageUpdate.TranslateSideways | Source/Ullage/UllageSimulator.cs:135-143 | The result is legal from any box; with a non-negative Y coefficient and a non-negative fuel ratio factor it keeps order and only widens the height range; with a non-negative X coefficient and a non-negative fuel ratio factor neither radial bound of a legal box decreases (both shift outwards); a zero side factor leaves a legal box alone |
| UllageUpdate.RotateYawPitch | Source/Ullage/UllageSimulator.cs:145-161 | Each height bound stays on its side of its midpoint: below 0.45 the lower bound ends in `[0, 0.45]`, otherwise in `[0.45, 0.9]`; likewise the upper bound around 0.55. With a non-negative X coefficient the radial range of a legal box widens. The result is legal, and a zero planar rotation magnitude leaves a legal box alone |
| UllageUpdate.YawPitchAmount | Source/Ullage/UllageSimulator.cs:146-149 | The raw rotation's planar magnitude times a yaw/pitch coefficient: non-negative for a non-negative coefficient, zero when that magnitude is zero |
| UllageUpdate.YawPitchLower | Source/Ullage/UllageSimulator.cs:150-153 | The lower height bound stays on its side of 0.45, in `[0, 0.45]` or `[0.45, 0.9]`; a non-negative amount moves a legal bound towards 0.45 without crossing it; a zero amount leaves it alone |
| UllageUpdate.YawPitchUpper | Source/Ullage/UllageSimulator.cs:155-158 | The upper height bound stays on its side of 0.55, in `[0.1, 0.55]` or `[0.55, 1]`; a non-negative amount moves a legal bound towards 0.55 without crossing it; a zero amount leaves it alone |
| UllageUpdate.YawPitchHeightsOrdered | Source/Ullage/UllageSimulator.cs:150-158 | With a non-negative amount the two height clamps keep an ordered pair ordered, in every combination of sides |
| UllageUpdate.RotateYawPitchTowardMidpoints | Source/Ullage/UllageSimulator.cs:150-161 | With non-negative coefficients, each legal height bound moves towards its midpoint without crossing it, and an ordered box stays ordered |
| UllageUpdate.RollFactor | Source/Ullage/UllageSimulator.cs:164 | The roll amount is non-negative for a non-negative fuel ratio factor, and zero without rotation |
| UllageUpdate.RotateRoll | Source/Ullage/UllageSimulator.cs:163-170 | The final clamps make every bound legal from any box; with a non-negative Y coefficient and a non-negative fuel ratio factor the step keeps order and only widens the height range; with a non-negative X coefficient and a non-negative fuel ratio factor neither radial bound of a legal box increases (both shift inwards) |
| UllageUpdate.Terms | Source/Ullage/UllageSimulator.cs:174-180 | `bLevel` lies in `[0, 15]`; `pVertical` and `pHorizontal` lie in `[0, 1]`, are 1 while their lower bound is at most 0.1, and are 0 exactly when it is at least 0.3 |
| UllageUpdate.StabilityOf | Source/Ullage/UllageSimulator.cs:174-183 | The stability lies in `[0, 1]` and is exactly 1 when the lower height or lower radial bound has reached 0.3 |
| UllageUpdate.DeformedBox | Source/Ullage/UllageSimulator.cs:116-170 | Diffusion followed by the four deformation steps yields a legal box from any box |
| UllageUpdate.Update | Source/Ullage/UllageSimulator.cs:91-192 | From any state: the box is legal; the stability is in `[0, 1]` and is 1 exactly when a lower bound has reached 0.3; the label and remembered stability are untouched; the timestamp follows the clock |
| UllageStatus.ProbabilityBase | Source/Ullage/UllageSimulator.cs:221-222 | The base is 1 exactly from 0.996 up, otherwise the stability itself; it never lowers a stability of at most 1 |
| UllageStatus.ProbabilityBaseMonotone | Source/Ullage/UllageSimulator.cs:221-222 | The rounded base is non-decreasing in the stability |
| UllageStatus.Probability | Source/Ullage/UllageSimulator.cs:219-224 | From 0.996 up, the probability is `pow(1, p)`; below, it is `pow(stability, p)` |
| UllageStatus.ProbabilityOfVeryStable | Source/Ullage/UllageSimulator.cs:221-223 | If `pow(1, p) = 1`, a stability of at least 0.996 has probability 1 |
| UllageStatus.ProbabilityMonotone | Source/Ullage/UllageSimulator.cs:219-224 | For an exponent under which power is monotone, the probability is non-decreasing in a non-negative stability |
| UllageStatus.ClassifyTier | Source/Ullage/UllageSimulator.cs:202-213 | "Very stable" exactly from 0.996 up, "very unstable" exactly below 0.15 |
| UllageStatus.RankCountsThresholdsMet | Source/Ullage/UllageSimulator.cs:202-213 | The tier's rank equals how many of the five thresholds the stability meets: the first threshold met, from the top, decides the tier |
| UllageStatus.TierMonotone | Source/Ullage/UllageSimulator.cs:202-213 | A higher stability never gets a worse tier |
| UllageStatus.ColourOf | Source/Ullage/UllageSimulator.cs:230-235 | White exactly from 0.95 up, red exactly below 0.75, orange between |
| UllageStatus.ColourMatchesTier | Source/Ullage/UllageSimulator.cs:202-235 | The colour is white exactly for the two stable tiers, orange exactly for "risky", and red exactly for the three tiers below |
| UllageStatus.RefreshStatus | Source/Ullage/UllageSimulator.cs:194-215 | A change below 0.0005 leaves the simulator unchanged; otherwise the remembered stability becomes the current one and the label gets its tier and probability; box, stability and timestamp are never touched |
| UllageStatus.RefreshIdempotent | Source/Ullage/UllageSimulator.cs:196-200 | A second status query straight after a first changes nothing |
| UllageStatus.GetPropellantStatus | Source/Ullage/UllageSimulator.cs:228-238 | Returns the refreshed label and the current stability's colour; after a recomputation, colour and tier agree; a consistent label stays consistent |
| UllageStatus.SetPropellantStability | Source/Ullage/UllageSimulator.cs:226 | Overrides the stability and nothing else |
| UllageStatus.GetPropellantStability | Source/Ullage/UllageSimulator.cs:217 | Returns the current stability score |
| UllageStatus.SetThenGetStability | Source/Ullage/UllageSimulator.cs:217-226 | The getter reads back a forced stability, and forcing the current stability changes nothing |
| UllageStatus.ForcedNearCertainStability | Source/Ullage/UllageSimulator.cs:221-226 | If `pow(1, p) = 1`, forcing a stability of 0.999 gives probability 1 whatever the exponent |
| UtilMath.ClampLowerBelowUpper | Source/Ullage/UllageSimulator.cs:130-131 | A lower bound clamped to `[0, 0.9]` and a larger upper bound clamped to `[0.1, 1]` stay ordered |
| UllageProofs.DeformedBoxPreservesOrder | Source/Ullage/UllageSimulator.cs:118-170 | With non-negative widening coefficients, a non-negative fuel ratio factor and diffusion factors in `[0, 1]`, the deformation pipeline keeps an ordered box ordered |
| UllageProofs.UpdatePreservesOrder | Source/Ullage/UllageSimulator.cs:91-170 | The same assumptions make one tick keep an ordered box ordered, including the all-zero box of a named part |
| UllageProofs.SettledDiffusionFactors | Source/Ullage/UllageSimulator.cs:118-124 | With a positive venting threshold, rates in `[0, 1]`, a positive fuel ratio factor and a non-negative elapsed time, a tick is computable and its diffusion factors lie in `[0, 1]` |
| UllageProofs.SettledFactorsInUnit | Source/Ullage/UllageSimulator.cs:120-124 | Under the same assumptions, both diffusion factors lie in `[0, 1]` |
| UllageProofs.Run | Source/Ullage/UllageSimulator.cs:91-192 | After at least one tick the box is legal and the stability is in `[0, 1]`, from any start; ticks never touch the label or the remembered stability |
| UllageProofs.RunPreservesOrder | Source/Ullage/UllageSimulator.cs:91-170 | Over any run with non-negative coefficients, settled diffusion, positive fuel ratio factors and no time running backwards, an ordered box stays ordered |
| UllageProofs.NamedPartBecomesLegal | Source/Ullage/UllageSimulator.cs:54-57 | A named part's box starts outside the legal intervals, and is legal and ordered after its first tick of such a run |
| UllageProofs.QuietAxial | Source/Ullage/UllageSimulator.cs:127-133 | Without acceleration, the axial step leaves a legal box alone |
| UllageProofs.QuietSideways | Source/Ullage/UllageSimulator.cs:135-143 | Without acceleration, and with `sqrt(0) = 0`, the sideways step leaves a legal box alone |
| UllageProofs.QuietYawPitch | Source/Ullage/UllageSimulator.cs:145-161 | Without rotation, and with `sqrt(0) = 0`, yaw/pitch leaves a legal box alone |
| UllageProofs.QuietRoll | Source/Ullage/UllageSimulator.cs:163-170 | Without rotation, roll leaves a legal box alone |
| UllageProofs.QuietTranslationsAreIdentity | Source/Ullage/UllageSimulator.cs:127-143 | On a quiet tick, and with `sqrt(0) = 0`, both translations leave a legal box alone |
| UllageProofs.QuietRotationsAreIdentity | Source/Ullage/UllageSimulator.cs:145-170 | On a quiet tick, and with `sqrt(0) = 0`, both rotations leave a legal box alone |
| UllageProofs.QuietDeformationIsIdentity | Source/Ullage/UllageSimulator.cs:127-170 | On a quiet tick, and with `sqrt(0) = 0`, the four deformation steps together leave a legal box alone |
| UllageProofs.DiffuseRelaxes | Source/Ullage/UllageSimulator.cs:121-124 | With factors in `[0, 1]`, every bound of a legal box moves towards rest without passing it, and the box stays legal |
| UllageProofs.SettledDiffusionRelaxes | Source/Ullage/UllageSimulator.cs:116-125 | With settled settings, a positive fuel ratio factor and a non-negative elapsed time, the diffusion step moves a legal box towards rest and keeps it legal, whether or not diffusion applies |
| UllageProofs.QuietDeformationIsDiffusion | Source/Ullage/UllageSimulator.cs:116-170 | On a quiet tick whose diffused box is legal, the whole pipeline is the diffusion step alone |
| UllageProofs.QuietDeformationRelaxes | Source/Ullage/UllageSimulator.cs:116-170 | On a quiet tick with settled settings, a positive fuel ratio factor, a non-negative elapsed time and `sqrt(0) = 0`, the pipeline moves every bound of a legal box towards its rest value without passing it |
| UllageProofs.QuietTickRelaxes | Source/Ullage/UllageSimulator.cs:91-170 | One quiet tick with settled settings, a positive fuel ratio factor, no time running backwards and `sqrt(0) = 0` moves every bound of a legal box towards rest |
| UllageProofs.QuietRunStep | Source/Ullage/UllageSimulator.cs:91-170 | For a non-empty run of computable quiet ticks with settled settings, positive fuel ratio factors, no time running backwards and `sqrt(0) = 0`, starting from a legal box, the first tick relaxes the box and the remaining ticks again meet these assumptions from the new state |
| UllageProofs.QuietRunRelaxes | Source/Ullage/UllageSimulator.cs:91-170 | Over any run of computable quiet ticks with settled settings, positive fuel ratio factors, no time running backwards and `sqrt(0) = 0`, every bound of a legal box ends between where it started and its rest value |
| UllageProofs.StabilityAtRest | Source/Ullage/UllageSimulator.cs:174-183 | The rest box, whose lower bounds sit far below 0.3, has stability at most 0.25 for any fill ratio |
| UllageProofs.QuietTickFromRestDropsStability | Source/Ullage/UllageSimulator.cs:91-183 | A quiet tick from the parameterless constructor's state, under settled diffusion settings, with a fuel ratio above -0.5, no time running backwards and `sqrt(0) = 0`, keeps the rest box and drops the stability from 1 to at most 0.25 |
| UllageProofs.BackwardDiffusion | Source/Ullage/UllageSimulator.cs:118-124 | With full-rate diffusion settings, an elapsed time of -100 extrapolates the heights (0.5, 0.5) away from rest to (45.5, -44.5) |
| UllageProofs.BackwardDeformation | Source/Ullage/UllageSimulator.cs:116-170 | The clamps of the axial step then take those heights to (0.9, 0.1), and the quiet rotations and translations keep them |
| UllageProofs.BackwardUpdate | Source/Ullage/UllageSimulator.cs:91-170 | A tick whose clock reads 100 units before the stored timestamp takes the box with heights (0.5, 0.5) to heights (0.9, 0.1) |
| UllageProofs.BackwardTimeUnordersBox | Source/Ullage/UllageSimulator.cs:91-170 | Counterexample: under settled diffusion settings a clock running backwards makes a tick turn an ordered box into one whose lower height bound lies above its upper one |
| UllageProofs.FirstQueryRecomputes | Source/Ullage/UllageSimulator.cs:196-200 | Because the remembered stability starts at -1, the first status query after either constructor and any ticks recomputes the label from the current stability |
| UllageProofs.StatusConsistentPreserved | Source/Ullage/UllageSimulator.cs:194-215 | A label carrying a probability has the tier and the probability of the remembered stability: true after both constructors and kept by every operation |
| UllageProofs.LabelLagsColourWithinHysteresis | Source/Ullage/UllageSimulator.cs:228-238 | Inside the hysteresis band the cached label can still read "stable" while the freshly computed colour is already orange |

## Left out

- IEEE doubles: rounding, NaN and infinities are not modelled; all numbers are reals.
- `Math.Sqrt` and `Math.Pow` are abstract. The square root is assumed to be non-negative, which its type states. `sqrt(0) = 0` (`SqrtOfZeroIsZero`), `pow(1, p) = 1` (`PowOfOneIsOne`) and monotonicity of power (`PowMonotone`) are explicit preconditions of the lemmas that need them.
- UllageUpdate.Update: requires a non-zero venting threshold and a fuel ratio other than -0.5 whenever natural diffusion applies, because real division by zero is undefined. In the code, these cases divide doubles by zero, which the model does not represent.
- The planetarium clock and the global `RFSettings` instance are not read: they are an `Option<real>` argument and a `Settings` record.
- `ConfigNode` text parsing, `G17` formatting and failed parses are not modelled: a node is a `map<string, real>`. `Save` builds a fresh node; appending values to a node that already holds the keys is not modelled.
- The localised tier names and the `P1` percentage text are not modelled: a label is a tier plus an optional probability, absent until the first recomputation.
- The `XKCDColors` values are a three-value enum.
- The part name and the commented-out debug logging are not modelled; of the part-name constructor, only the fact that it does not reset the box is modelled.
- UllageProofs.RunPreservesOrder: box ordering is proved only under the stated assumptions (non-negative widening coefficients, settled diffusion settings, positive fuel ratio factors, no time running backwards), not unconditionally, because the code does not keep the box ordered without them (`BackwardTimeUnordersBox`).
- UllageProofs.QuietRunRelaxes: convergence towards the rest box is proved as "every bound ends between its start and its rest value" under settled diffusion settings, positive fuel ratio factors, no time running backwards and `sqrt(0) = 0`. Strict progress and the limit are not stated.
- A large lateral acceleration lowering stability is not stated as a lemma: the outcome depends on concrete values of the square root and of the tunables, which the model leaves abstract.

=== FILE: settings.dfy ===
/**
  The tunables the ullage simulation reads from the global `RFSettings`
  instance, passed in as an immutable record instead.
 */
module Settings {

  datatype Settings = Settings(
    naturalDiffusionAccThresh: real,
    ventingAccThreshold: real,
    naturalDiffusionRateX: real,
    naturalDiffusionRateY: real,
    translateAxialCoefficientX: real,
    translateAxialCoefficientY: real,
    translateSidewayCoefficientX: real,
    translateSidewayCoefficientY: real,
    rotateYawPitchCoefficientX: real,
    rotateYawPitchCoefficientY: real,
    rotateRollCoefficientX: real,
    rotateRollCoefficientY: real,
    stabilityPower: real)
  {
    /**
      The deformation coefficients that widen the box are non-negative. The
      axial height coefficient is left free: it shifts both height bounds the
      same way, so its sign does not matter for the box staying ordered.
     */
    predicate NonNegativeCoefficients() {
      && translateAxialCoefficientX >= 0.0
      && translateSidewayCoefficientX >= 0.0
      && translateSidewayCoefficientY >= 0.0
      && rotateYawPitchCoefficientX >= 0.0
      && rotateYawPitchCoefficientY >= 0.0
      && rotateRollCoefficientY >= 0.0
    }
  }
}

=== FILE: ullage_proofs.dfy ===
/**
  Properties of the ullage simulator over single ticks and over sequences of
  ticks: the box stays ordered, a quiet tank relaxes towards the rest box,
  the first status query recomputes the label, and the cached label stays
  consistent with the stability it was computed from.
 */
module UllageProofs {
  import opened UtilMath
  import opened Settings
  import opened UllageState
  import opened UllageUpdate
  import opened UllageStatus

  /** The diffusion factors `rate * ventingConst` a tick would use lie in `[0, 1]`. */
  predicate DiffusionFactorsInUnit(cfg: Settings, s: Simulator, t: Tick, clock: Option<real>)
    requires Computable(cfg, t)
  {
    DiffusionApplies(cfg, t) ==>
      var ventingConst := VentingConst(cfg, t, ElapsedTime(s.ut, t.deltaTime, clock).0);
      && 0.0 <= cfg.naturalDiffusionRateX * ventingConst <= 1.0
      && 0.0 <= cfg.naturalDiffusionRateY * ventingConst <= 1.0
  }

  /**
    One tick keeps the box ordered when the widening coefficients are
    non-negative, the fuel ratio factor is non-negative and the diffusion
    factors lie in `[0, 1]`. Only ordering is assumed of the box before, so
    this covers the all-zero box of a freshly named simulator too.
   */
  lemma UpdatePreservesOrder(s: Simulator, cfg: Settings, n: Numerics, t: Tick, clock: Option<real>)
    requires Computable(cfg, t)
    requires s.box.Ordered()
    requires cfg.NonNegativeCoefficients() && t.fuelRatio >= -0.5
    requires DiffusionFactorsInUnit(cfg, s, t, clock)
    ensures Update(s, cfg, n, t, clock).box.Ordered()
  {
    var elapsed := ElapsedTime(s.ut, t.deltaTime, clock).0;
    DeformedBoxPreservesOrder(s.box, cfg, n, t, elapsed);
  }

  /** The deformation pipeline of one tick keeps an ordered box ordered, under the assumptions above. */
  lemma DeformedBoxPreservesOrder(b: Box, cfg: Settings, n: Numerics, t: Tick, elapsed: real)
    requires Computable(cfg, t)
    requires b.Ordered()
    requires cfg.NonNegativeCoefficients() && t.fuelRatio >= -0.5
    requires DiffusionApplies(cfg, t) ==>
      var ventingConst := VentingConst(cfg, t, elapsed);
      && 0.0 <= cfg.naturalDiffusionRateX * ventingConst <= 1.0
      && 0.0 <= cfg.naturalDiffusionRateY * ventingConst <= 1.0
    ensures DeformedBox(b, cfg, n, t, elapsed).Ordered()
  {
    var diffused := DiffusionStep(b, cfg, t, elapsed);
    if DiffusionApplies(cfg, t) {
      var ventingConst := VentingConst(cfg, t, elapsed);
      var tX, tY := cfg.naturalDiffusionRateX * ventingConst, cfg.naturalDiffusionRateY * ventingConst;
      DiffusePreservesBox(b, tX, tY);
      assert diffused == Diffuse(b, tX, tY);
    }
    assert diffused.Ordered();
    var sideways := TranslateSideways(TranslateAxial(diffused, cfg, t), cfg, n, t);
    RotateYawPitchTowardMidpoints(sideways, cfg, n, t.rotation);
  }

  /** Diffusion settings under which every tick's diffusion factors lie in `[0, 1]`. */
  predicate SettledDiffusion(cfg: Settings) {
    && cfg.ventingAccThreshold > 0.0
    && 0.0 <= cfg.naturalDiffusionRateX <= 1.0
    && 0.0 <= cfg.naturalDiffusionRateY <= 1.0
  }

  /**
    With a positive venting threshold, diffusion rates in `[0, 1]`, a positive
    fuel ratio factor and no time running backwards, the diffusion factors lie
    in `[0, 1]`.
   */
  lemma SettledDiffusionFactors(s: Simulator, cfg: Settings, t: Tick, clock: Option<real>)
    requires SettledDiffusion(cfg) && t.fuelRatio > -0.5
    requires ElapsedTime(s.ut, t.deltaTime, clock).0 >= 0.0
    ensures Computable(cfg, t)
    ensures DiffusionFactorsInUnit(cfg, s, t, clock)
  {
    if DiffusionApplies(cfg, t) {
      SettledFactorsInUnit(cfg, t, ElapsedTime(s.ut, t.deltaTime, clock).0);
    }
  }

  /** One tick of a run: the caller's inputs and the clock reading, if there is a clock. */
  datatype Step = Step(tick: Tick, clock: Option<real>)

  predicate AllComputable(cfg: Settings, steps: seq<Step>) {
    forall i :: 0 <= i < |steps| ==> Computable(cfg, steps[i].tick)
  }

  /**
    The simulator after the ticks of `steps`, in order. After at least one
    tick the box is legal and the stability lies in `[0, 1]`, whatever the
    starting state; the cached label is never touched by ticks.
   */
  function Run(s: Simulator, cfg: Settings, n: Numerics, steps: seq<Step>): (r: Simulator)
    requires AllComputable(cfg, steps)
    ensures |steps| > 0 ==> r.box.InRange() && 0.0 <= r.stability <= 1.0
    ensures r.prevStability == s.prevStability && r.status == s.status
    decreases |steps|
  {
    if |steps| == 0 then s
    else Run(Update(s, cfg, n, steps[0].tick, steps[0].clock), cfg, n, steps[1..])
  }

  /**
    No tick of the run sees time run backwards: every tick's elapsed time is
    non-negative. With a clock, that is each reading being at least the stored
    timestamp (which it then replaces); without one, the caller's time step
    being non-negative.
   */
  predicate NoTimeRunsBackwards(ut: real, steps: seq<Step>)
    decreases |steps|
  {
    |steps| > 0 ==>
      var time := ElapsedTime(ut, steps[0].tick.deltaTime, steps[0].clock);
      time.0 >= 0.0 && NoTimeRunsBackwards(time.1, steps[1..])
  }

  /** Every tick of the run has a positive fuel ratio factor. */
  predicate PositiveFuelFactors(steps: seq<Step>) {
    forall i :: 0 <= i < |steps| ==> steps[i].tick.fuelRatio > -0.5
  }

  /**
    Over any run of ticks with non-negative widening coefficients, settled
    diffusion settings, positive fuel ratio factors and no time running
    backwards, an ordered box stays ordered after every tick.
   */
  lemma {:induction false} RunPreservesOrder(s: Simulator, cfg: Settings, n: Numerics, steps: seq<Step>)
    requires AllComputable(cfg, steps)
    requires s.box.Ordered()
    requires cfg.NonNegativeCoefficients() && SettledDiffusion(cfg)
    requires PositiveFuelFactors(steps)
    requires NoTimeRunsBackwards(s.ut, steps)
    ensures Run(s, cfg, n, steps).box.Ordered()
    decreases |steps|
  {
    if |steps| > 0 {
      var step := steps[0];
      SettledDiffusionFactors(s, cfg, step.tick, step.clock);
      UpdatePreservesOrder(s, cfg, n, step.tick, step.clock);
      var next := Update(s, cfg, n, step.tick, step.clock);
      assert NoTimeRunsBackwards(next.ut, steps[1..]);
      RunPreservesOrder(next, cfg, n, steps[1..]);
    }
  }

  /**
    The simulator of a named part starts with an all-zero box, outside the
    legal intervals; after its first tick the box is legal, and under the
    assumptions of `RunPreservesOrder` it stays ordered.
   */
  lemma NamedPartBecomesLegal(cfg: Settings, n: Numerics, steps: seq<Step>)
    requires |steps| > 0 && AllComputable(cfg, steps)
    requires cfg.NonNegativeCoefficients() && SettledDiffusion(cfg)
    requires PositiveFuelFactors(steps) && NoTimeRunsBackwards(NewForPart().ut, steps)
    ensures !NewForPart().box.InRange()
    ensures Run(NewForPart(), cfg, n, steps).box.InRange()
    ensures Run(NewForPart(), cfg, n, steps).box.Ordered()
  {
    RunPreservesOrder(NewForPart(), cfg, n, steps);
  }

  /** A tick without acceleration, rotation or venting. */
  predicate Quiet(t: Tick) {
    && t.localAcceleration == Vector3d(0.0, 0.0, 0.0)
    && t.rotation == Vector3d(0.0, 0.0, 0.0)
    && t.ventingAcc == 0.0
  }

  /** Every bound of `next` lies between the same bound of `b` and its rest value. */
  predicate BoxMovesTowardRest(b: Box, next: Box) {
    && MovesToward(b.heightMin, next.heightMin, RestBox.heightMin)
    && MovesToward(b.heightMax, next.heightMax, RestBox.heightMax)
    && MovesToward(b.radialMin, next.radialMin, RestBox.radialMin)
    && MovesToward(b.radialMax, next.radialMax, RestBox.radialMax)
  }

  /** Without acceleration or rotation, the four deformation steps leave a legal box alone. */
  lemma QuietDeformationIsIdentity(b: Box, cfg: Settings, n: Numerics, t: Tick)
    requires Quiet(t) && n.SqrtOfZeroIsZero()
    requires b.InRange()
    ensures RotateRoll(RotateYawPitch(TranslateSideways(TranslateAxial(b, cfg, t), cfg, n, t), cfg, n, t.rotation), cfg, t) == b
  {
    QuietTranslationsAreIdentity(b, cfg, n, t);
    QuietRotationsAreIdentity(b, cfg, n, t);
  }

  lemma QuietTranslationsAreIdentity(b: Box, cfg: Settings, n: Numerics, t: Tick)
    requires Quiet(t) && n.SqrtOfZeroIsZero()
    requires b.InRange()
    ensures TranslateAxial(b, cfg, t) == b
    ensures TranslateSideways(b, cfg, n, t) == b
  {
    QuietAxial(b, cfg, t);
    QuietSideways(b, cfg, n, t);
  }

  lemma QuietRotationsAreIdentity(b: Box, cfg: Settings, n: Numerics, t: Tick)
    requires Quiet(t) && n.SqrtOfZeroIsZero()
    requires b.InRange()
    ensures RotateYawPitch(b, cfg, n, t.rotation) == b
    ensures RotateRoll(b, cfg, t) == b
  {
    QuietYawPitch(b, cfg, n, t.rotation);
    QuietRoll(b, cfg, t);
  }

  lemma QuietAxial(b: Box, cfg: Settings, t: Tick)
    requires t.localAcceleration == Vector3d(0.0, 0.0, 0.0) && b.InRange()
    ensures TranslateAxial(b, cfg, t) == b
  {
    assert AccelerationAmount(t).y == 0.0;
  }

  lemma QuietSideways(b: Box, cfg: Settings, n: Numerics, t: Tick)
    requires t.localAcceleration == Vector3d(0.0, 0.0, 0.0) && n.SqrtOfZeroIsZero() && b.InRange()
    ensures TranslateSideways(b, cfg, n, t) == b
  {
    assert SideFactor(n, t) == 0.0;
  }

  lemma QuietYawPitch(b: Box, cfg: Settings, n: Numerics, rotation: Vector3d)
    requires rotation == Vector3d(0.0, 0.0, 0.0) && n.SqrtOfZeroIsZero() && b.InRange()
    ensures RotateYawPitch(b, cfg, n, rotation) == b
  {
    assert n.Magnitude(rotation.Planar()) == 0.0;
  }

  lemma QuietRoll(b: Box, cfg: Settings, t: Tick)
    requires t.rotation == Vector3d(0.0, 0.0, 0.0) && b.InRange()
    ensures RotateRoll(b, cfg, t) == b
  {
    assert RollFactor(t) == 0.0;
  }

  /** Interpolating with factors in `[0, 1]` moves every bound of a legal box towards rest and keeps it legal. */
  lemma DiffuseRelaxes(b: Box, tX: real, tY: real)
    requires 0.0 <= tX <= 1.0 && 0.0 <= tY <= 1.0 && b.InRange()
    ensures BoxMovesTowardRest(b, Diffuse(b, tX, tY))
    ensures Diffuse(b, tX, tY).InRange()
  {
    DiffuseMovesToward(b, tX, tY);
    DiffusePreservesBox(b, tX, tY);
  }

  /** With settled settings, a positive fuel ratio factor and a non-negative elapsed time, both diffusion factors lie in `[0, 1]`. */
  lemma SettledFactorsInUnit(cfg: Settings, t: Tick, elapsed: real)
    requires SettledDiffusion(cfg) && t.ventingAcc <= cfg.ventingAccThreshold
    requires t.fuelRatio > -0.5 && elapsed >= 0.0
    ensures 0.0 <= cfg.naturalDiffusionRateX * VentingConst(cfg, t, elapsed) <= 1.0
    ensures 0.0 <= cfg.naturalDiffusionRateY * VentingConst(cfg, t, elapsed) <= 1.0
  {
    VentingConstNonNegative(cfg, t, elapsed);
    var ventingConst := VentingConst(cfg, t, elapsed);
    UnitProduct(cfg.naturalDiffusionRateX, ventingConst);
    UnitProduct(cfg.naturalDiffusionRateY, ventingConst);
  }

  /**
    With settled diffusion settings, a positive fuel ratio factor and no time
    running backwards, natural diffusion moves every bound of a legal box
    towards its rest value and keeps the box legal.
   */
  lemma SettledDiffusionRelaxes(b: Box, cfg: Settings, t: Tick, elapsed: real)
    requires SettledDiffusion(cfg) && t.fuelRatio > -0.5
    requires b.InRange() && elapsed >= 0.0
    ensures Computable(cfg, t)
    ensures BoxMovesTowardRest(b, DiffusionStep(b, cfg, t, elapsed))
    ensures DiffusionStep(b, cfg, t, elapsed).InRange()
  {
    if DiffusionApplies(cfg, t) {
      var ventingConst := VentingConst(cfg, t, elapsed);
      var tX, tY := cfg.naturalDiffusionRateX * ventingConst, cfg.naturalDiffusionRateY * ventingConst;
      assert DiffusionStep(b, cfg, t, elapsed) == Diffuse(b, tX, tY) && 0.0 <= tX <= 1.0 && 0.0 <= tY <= 1.0 by {
        SettledFactorsInUnit(cfg, t, elapsed);
        DiffusionStepApplies(b, cfg, t, elapsed);
      }
      DiffuseRelaxes(b, tX, tY);
    }
  }

  /** On a quiet tick, the deformation pipeline is the diffusion step alone, provided that step yields a legal box. */
  lemma QuietDeformationIsDiffusion(b: Box, cfg: Settings, n: Numerics, t: Tick, elapsed: real)
    requires Computable(cfg, t) && Quiet(t) && n.SqrtOfZeroIsZero()
    requires DiffusionStep(b, cfg, t, elapsed).InRange()
    ensures DeformedBox(b, cfg, n, t, elapsed) == DiffusionStep(b, cfg, t, elapsed)
  {
    QuietDeformationIsIdentity(DiffusionStep(b, cfg, t, elapsed), cfg, n, t);
  }

  /** The deformation pipeline of a quiet tick is diffusion alone, and moves a legal box towards rest. */
  lemma QuietDeformationRelaxes(b: Box, cfg: Settings, n: Numerics, t: Tick, elapsed: real)
    requires Quiet(t) && t.fuelRatio > -0.5
    requires SettledDiffusion(cfg)
    requires n.SqrtOfZeroIsZero()
    requires b.InRange() && elapsed >= 0.0
    ensures Computable(cfg, t)
    ensures BoxMovesTowardRest(b, DeformedBox(b, cfg, n, t, elapsed))
  {
    SettledDiffusionRelaxes(b, cfg, t, elapsed);
    QuietDeformationIsDiffusion(b, cfg, n, t, elapsed);
  }

  /**
    On a quiet tick with settled diffusion settings, a positive fuel ratio
    factor and no time running backwards, every bound of a
    legal box moves towards its rest value without passing it: the clamps of
    the deformation steps leave the diffused box alone.
   */
  lemma QuietTickRelaxes(s: Simulator, cfg: Settings, n: Numerics, t: Tick, clock: Option<real>)
    requires Quiet(t) && t.fuelRatio > -0.5
    requires SettledDiffusion(cfg)
    requires n.SqrtOfZeroIsZero()
    requires s.box.InRange()
    requires ElapsedTime(s.ut, t.deltaTime, clock).0 >= 0.0
    ensures Computable(cfg, t)
    ensures BoxMovesTowardRest(s.box, Update(s, cfg, n, t, clock).box)
  {
    var elapsed := ElapsedTime(s.ut, t.deltaTime, clock).0;
    assert Computable(cfg, t) && BoxMovesTowardRest(s.box, DeformedBox(s.box, cfg, n, t, elapsed)) by {
      QuietDeformationRelaxes(s.box, cfg, n, t, elapsed);
    }
    UpdateDeformsBox(s, cfg, n, t, clock);
  }

  /** Moving towards rest twice is moving towards rest. */
  lemma BoxMovesTowardRestTransitive(b: Box, mid: Box, next: Box)
    requires BoxMovesTowardRest(b, mid) && BoxMovesTowardRest(mid, next)
    ensures BoxMovesTowardRest(b, next)
  {
  }

  /** Every tick of the run is quiet. */
  predicate QuietRun(steps: seq<Step>) {
    forall i :: 0 <= i < |steps| ==> Quiet(steps[i].tick)
  }

  /** The ticks after the first of a quiet run form a quiet run. */
  lemma QuietRunTail(cfg: Settings, steps: seq<Step>)
    requires |steps| > 0
    requires QuietRun(steps) && PositiveFuelFactors(steps) && AllComputable(cfg, steps)
    ensures QuietRun(steps[1..]) && PositiveFuelFactors(steps[1..]) && AllComputable(cfg, steps[1..])
  {
    forall i | 0 <= i < |steps[1..]|
      ensures Quiet(steps[1..][i].tick)
      ensures steps[1..][i].tick.fuelRatio > -0.5 && Computable(cfg, steps[1..][i].tick)
    {
      assert steps[1..][i] == steps[i + 1];
    }
  }

  /** The assumptions under which a run of ticks relaxes the box: a quiet run from a legal box. */
  predicate QuietRunFrom(s: Simulator, cfg: Settings, n: Numerics, steps: seq<Step>) {
    && AllComputable(cfg, steps)
    && QuietRun(steps) && PositiveFuelFactors(steps)
    && SettledDiffusion(cfg) && n.SqrtOfZeroIsZero()
    && s.box.InRange()
    && NoTimeRunsBackwards(s.ut, steps)
  }

  /**
    The first tick of a quiet run moves the box towards rest, and the rest of
    the run is a quiet run from the box it leaves.
   */
  lemma QuietRunStep(s: Simulator, cfg: Settings, n: Numerics, steps: seq<Step>)
    requires |steps| > 0 && QuietRunFrom(s, cfg, n, steps)
    ensures
      var next := Update(s, cfg, n, steps[0].tick, steps[0].clock);
      && BoxMovesTowardRest(s.box, next.box)
      && QuietRunFrom(next, cfg, n, steps[1..])
  {
    hide DeformedBox;
    var t, clock := steps[0].tick, steps[0].clock;
    assert Quiet(t) && t.fuelRatio > -0.5;
    QuietTickRelaxes(s, cfg, n, t, clock);
    QuietRunTail(cfg, steps);
  }

  /**
    Over a run of quiet ticks, every bound of a legal box ends between where
    it started and its rest value: repeated quiet ticks drive the box towards
    the rest box and never past it.
   */
  lemma {:induction false} QuietRunRelaxes(s: Simulator, cfg: Settings, n: Numerics, steps: seq<Step>)
    requires QuietRunFrom(s, cfg, n, steps)
    ensures BoxMovesTowardRest(s.box, Run(s, cfg, n, steps).box)
    decreases |steps|
  {
    // The run only needs what `QuietRunStep` states about each tick.
    hide DeformedBox;
    if |steps| > 0 {
      QuietRunStep(s, cfg, n, steps);
      var next := Update(s, cfg, n, steps[0].tick, steps[0].clock);
      QuietRunRelaxes(next, cfg, n, steps[1..]);
      BoxMovesTowardRestTransitive(s.box, next.box, Run(next, cfg, n, steps[1..]).box);
    }
  }

  /**
    The rest box scores at most 0.25: its lower height bound (0.05) and lower
    radial bound (0) are both below 0.1, so both probability terms are 1.
   */
  lemma StabilityAtRest(fuelRatio: real, n: Numerics)
    ensures StabilityOf(RestBox, fuelRatio, n) <= 0.25
  {
    var terms := Terms(RestBox, fuelRatio);
    assert terms.pVertical == 1.0 && terms.pHorizontal == 1.0;
    assert terms.pVertical * terms.pHorizontal == 1.0;
  }

  /**
    A quiet tick from the parameterless constructor's state leaves the box at
    rest, and so drops the stability from 1 to at most 0.25: a box at rest
    does not score as stable, whatever the tunables.
   */
  lemma QuietTickFromRestDropsStability(cfg: Settings, n: Numerics, t: Tick, clock: Option<real>)
    requires Quiet(t) && t.fuelRatio > -0.5
    requires SettledDiffusion(cfg) && n.SqrtOfZeroIsZero()
    requires ElapsedTime(New().ut, t.deltaTime, clock).0 >= 0.0
    ensures Computable(cfg, t)
    ensures Update(New(), cfg, n, t, clock).box == RestBox
    ensures Update(New(), cfg, n, t, clock).stability <= 0.25 < New().stability
  {
    hide DeformedBox;
    var next := Update(New(), cfg, n, t, clock);
    assert next.box == RestBox by {
      QuietTickRelaxes(New(), cfg, n, t, clock);
    }
    UpdateDeformsBox(New(), cfg, n, t, clock);
    StabilityAtRest(t.fuelRatio, n);
  }

  /** Settings under which natural diffusion runs at full rate: both thresholds and both rates are 1. */
  predicate FullRateDiffusion(cfg: Settings) {
    && cfg.naturalDiffusionAccThresh == 1.0 && cfg.ventingAccThreshold == 1.0
    && cfg.naturalDiffusionRateX == 1.0 && cfg.naturalDiffusionRateY == 1.0
  }

  /** Under full-rate settings a quiet tick with fuel ratio 0.9 is computable and lets natural diffusion run. */
  lemma FullRateApplies(cfg: Settings, t: Tick)
    requires FullRateDiffusion(cfg) && Quiet(t) && t.fuelRatio == 0.9
    ensures DiffusionApplies(cfg, t) && Computable(cfg, t)
  {
    assert DiffusionApplies(cfg, t) by {
      assert t.localAcceleration.SqrMagnitude() == 0.0;
    }
  }

  /**
    Under full-rate settings a quiet tick with fuel ratio 0.9 (fuel ratio
    factor 1) diffuses with weight equal to the elapsed time, when that is at
    most 1.
   */
  lemma FullRateWeight(cfg: Settings, t: Tick, elapsed: real)
    requires FullRateDiffusion(cfg) && Quiet(t) && t.fuelRatio == 0.9 && elapsed <= 1.0
    ensures cfg.naturalDiffusionRateX * VentingConst(cfg, t, elapsed) == elapsed
    ensures cfg.naturalDiffusionRateY * VentingConst(cfg, t, elapsed) == elapsed
  {
    assert t.FuelRatioFactor() == 1.0;
    assert 1.0 / t.FuelRatioFactor() == 1.0;
  }

  /** Interpolating with weight -100 towards the rest heights extrapolates (0.5, 0.5) to (45.5, -44.5). */
  lemma DiffuseBackward()
    ensures Diffuse(Box(0.5, 0.5, 0.0, 0.95), -100.0, -100.0) == Box(45.5, -44.5, 0.0, 0.95)
  {
    var b := Box(0.5, 0.5, 0.0, 0.95);
    assert LerpUnclamped(b.heightMin, RestBox.heightMin, -100.0) == 45.5;
    assert LerpUnclamped(b.heightMax, RestBox.heightMax, -100.0) == -44.5;
  }

  /**
    Diffusing the degenerate box with heights (0.5, 0.5) over an elapsed time
    of -100 extrapolates the heights to (45.5, -44.5).
   */
  lemma BackwardDiffusion(cfg: Settings, t: Tick)
    requires FullRateDiffusion(cfg) && Quiet(t) && t.fuelRatio == 0.9
    ensures Computable(cfg, t)
    ensures DiffusionStep(Box(0.5, 0.5, 0.0, 0.95), cfg, t, -100.0) == Box(45.5, -44.5, 0.0, 0.95)
  {
    hide *;
    FullRateApplies(cfg, t);
    FullRateWeight(cfg, t, -100.0);
    DiffusionStepApplies(Box(0.5, 0.5, 0.0, 0.95), cfg, t, -100.0);
    DiffuseBackward();
  }

  /** Without acceleration the axial step only clamps: heights (45.5, -44.5) cross over to (0.9, 0.1). */
  lemma QuietAxialClamps(cfg: Settings, t: Tick)
    requires Quiet(t)
    ensures TranslateAxial(Box(45.5, -44.5, 0.0, 0.95), cfg, t) == Box(0.9, 0.1, 0.0, 0.95)
  {
    assert AccelerationAmount(t).y == 0.0;
    assert AxialHeightFactor(cfg, t) == 0.0 && AxialRadialFactor(cfg, t) == 0.0;
  }

  /** The pipeline of such a tick: the clamps of the axial step cross the heights over, and the other steps keep the result. */
  lemma BackwardDeformation(cfg: Settings, n: Numerics, t: Tick)
    requires FullRateDiffusion(cfg) && Quiet(t) && t.fuelRatio == 0.9 && n.SqrtOfZeroIsZero()
    ensures Computable(cfg, t)
    ensures DeformedBox(Box(0.5, 0.5, 0.0, 0.95), cfg, n, t, -100.0) == Box(0.9, 0.1, 0.0, 0.95)
  {
    hide DiffusionStep, TranslateAxial, TranslateSideways, RotateYawPitch, RotateRoll;
    var crossed := Box(0.9, 0.1, 0.0, 0.95);
    BackwardDiffusion(cfg, t);
    QuietAxialClamps(cfg, t);
    QuietTranslationsAreIdentity(crossed, cfg, n, t);
    QuietRotationsAreIdentity(crossed, cfg, n, t);
  }

  /**
    Time running backwards breaks the ordering. Take settings whose diffusion
    runs at full rate, with any coefficients, and a quiet tick with fuel ratio
    0.9 whose clock reads 100 units before the stored timestamp: it takes the
    ordered box with heights (0.5, 0.5) to one whose lower height bound (0.9)
    lies above its upper one (0.1), although the diffusion settings are
    settled. This is why `RunPreservesOrder` assumes that no time runs
    backwards.
   */
  lemma BackwardTimeUnordersBox(s: Simulator, cfg: Settings, n: Numerics, t: Tick)
    requires s.box == Box(0.5, 0.5, 0.0, 0.95)
    requires FullRateDiffusion(cfg) && Quiet(t) && t.fuelRatio == 0.9 && n.SqrtOfZeroIsZero()
    ensures s.box.Ordered() && SettledDiffusion(cfg) && Computable(cfg, t)
    ensures Update(s, cfg, n, t, Some(s.ut - 100.0)).box == Box(0.9, 0.1, 0.0, 0.95)
    ensures !Update(s, cfg, n, t, Some(s.ut - 100.0)).box.Ordered()
  {
    hide Update;
    BackwardUpdate(s, cfg, n, t);
  }

  /** The tick of `BackwardTimeUnordersBox`: a clock 100 units behind the timestamp runs diffusion backwards. */
  lemma BackwardUpdate(s: Simulator, cfg: Settings, n: Numerics, t: Tick)
    requires s.box == Box(0.5, 0.5, 0.0, 0.95)
    requires FullRateDiffusion(cfg) && Quiet(t) && t.fuelRatio == 0.9 && n.SqrtOfZeroIsZero()
    ensures Computable(cfg, t)
    ensures Update(s, cfg, n, t, Some(s.ut - 100.0)).box == Box(0.9, 0.1, 0.0, 0.95)
  {
    hide *;
    var clock := Some(s.ut - 100.0);
    BackwardDeformation(cfg, n, t);
    assert ElapsedTime(s.ut, t.deltaTime, clock).0 == -100.0;
    UpdateDeformsBox(s, cfg, n, t, clock);
  }

  /**
    The remembered stability starts at -1, so the first status query after
    construction and any number of ticks recomputes the label.
   */
  lemma FirstQueryRecomputes(cfg: Settings, n: Numerics, steps: seq<Step>, named: bool)
    requires AllComputable(cfg, steps)
    ensures
      var s := Run(if named then NewForPart() else New(), cfg, n, steps);
      var r := RefreshStatus(s, cfg, n);
      && r.prevStability == s.stability
      && r.status.tier == ClassifyTier(s.stability)
      && r.status.probability == Some(Probability(s.stability, cfg, n))
  {
    var s := Run(if named then NewForPart() else New(), cfg, n, steps);
    assert s.prevStability == -1.0;
    assert 0.0 <= s.stability <= 1.0;
    assert Abs(s.stability - s.prevStability) >= MinStabilityDiffForUpdate;
  }

  /**
    A cached label with a probability is the tier of the stability it was
    computed from: this holds initially and every operation keeps it.
   */
  lemma StatusConsistentPreserved(s: Simulator, cfg: Settings, n: Numerics, t: Tick, clock: Option<real>,
                                  node: Option<map<string, real>>, stability: real)
    requires StatusConsistent(s, cfg, n)
    ensures StatusConsistent(New(), cfg, n) && StatusConsistent(NewForPart(), cfg, n)
    ensures Computable(cfg, t) ==> StatusConsistent(Update(s, cfg, n, t, clock), cfg, n)
    ensures StatusConsistent(RefreshStatus(s, cfg, n), cfg, n)
    ensures StatusConsistent(Load(node, s), cfg, n)
    ensures StatusConsistent(Reset(s), cfg, n)
    ensures StatusConsistent(SetPropellantStability(s, stability), cfg, n)
  {
  }

  /**
    The label lags the colour within the hysteresis band: a label computed at
    0.9502 still reads "stable" at 0.9499, while the colour, computed afresh,
    is already orange.
   */
  lemma LabelLagsColourWithinHysteresis(cfg: Settings, n: Numerics)
    ensures
      var cached := Label(Stable, Some(Probability(0.9502, cfg, n)));
      var s := Simulator(RestBox, 0.9502, 0.9499, cached, 0.0);
      var r := GetPropellantStatus(s, cfg, n);
      && ClassifyTier(0.9502) == Stable && StatusConsistent(s, cfg, n)
      && r.0 == cached && r.1 == NotSoGoodOrange
      && ClassifyTier(0.9499) == Risky
  {
  }
}

=== FILE: ullage_state.dfy ===
/**
  The state of one tank's ullage simulator: where the ullage (the gas above
  or around the liquid propellant) sits, as a box of heights `[heightMin,
  heightMax]` and radii `[radialMin, radialMax]` in tank-relative units, plus
  the timestamp of the last update, the current stability score and the cached
  status label. Also the two constructors, `Reset` and persistence.
 */
module UllageState {
  import opened UtilMath

  /** Where the ullage sits. */
  datatype Box = Box(heightMin: real, heightMax: real, radialMin: real, radialMax: real) {

    /** Every bound lies in the interval its clamps allow. */
    predicate InRange() {
      && 0.0 <= heightMin <= 0.9
      && 0.1 <= heightMax <= 1.0
      && 0.0 <= radialMin <= 0.9
      && 0.1 <= radialMax <= 1.0
    }

    /** Both intervals are non-empty. */
    predicate Ordered() {
      heightMin <= heightMax && radialMin <= radialMax
    }
  }

  /** The box natural diffusion relaxes towards, and the one `Reset` installs. */
  const RestBox: Box := Box(0.05, 0.95, 0.0, 0.95)

  /** The six status tiers, best first. */
  datatype Tier = VeryStable | Stable | Risky | VeryRisky | Unstable | VeryUnstable

  /**
    A status label: the localised tier name, followed by the ignition
    probability as a percentage once it has been computed at least once.
   */
  datatype Label = Label(tier: Tier, probability: Option<real>)

  datatype Simulator = Simulator(
    box: Box,
    prevStability: real,
    stability: real,
    status: Label,
    ut: real)

  /** `double.MinValue`, the timestamp before the first update. */
  const DoubleMinValue: real := -179769313486231570814527423731704356798070567525844996598917476803157260780028538760589558632766878171540458953514382464234321326889464182768467546703537516986049910576551282076245490090389328944075868508455133942304583236903222948165808559332123348274797826204144723168738177180919299881250404026184124858368.0

  /** The field initialisers, before any constructor body has run. */
  function Initial(): (s: Simulator)
    ensures s.stability == 1.0 && s.prevStability == -1.0
    ensures s.status == Label(VeryStable, None)
    ensures s.box == Box(0.0, 0.0, 0.0, 0.0) && s.box.Ordered() && !s.box.InRange()
    ensures s.ut == DoubleMinValue
  {
    Simulator(Box(0.0, 0.0, 0.0, 0.0), -1.0, 1.0, Label(VeryStable, None), DoubleMinValue)
  }

  /** The parameterless constructor, which resets the box. */
  function New(): (s: Simulator)
    ensures s.box == RestBox && s.box.InRange() && s.box.Ordered()
    ensures s.stability == 1.0 && s.prevStability == -1.0
    ensures s.status == Label(VeryStable, None) && s.ut == DoubleMinValue
  {
    Reset(Initial())
  }

  /**
    The constructor taking a part name. It does not reset the box, so all four
    bounds start at zero: ordered, but outside their legal intervals until the
    first update. The name only appears in diagnostics and is not modelled.
   */
  function NewForPart(): (s: Simulator)
    ensures s.box == Box(0.0, 0.0, 0.0, 0.0) && s.box.Ordered() && !s.box.InRange()
    ensures s.stability == 1.0 && s.prevStability == -1.0
    ensures s.status == Label(VeryStable, None) && s.ut == DoubleMinValue
  {
    Initial()
  }

  /** Puts the box back to its rest value and leaves everything else alone. */
  function Reset(s: Simulator): (r: Simulator)
    ensures r.box.InRange() && r.box.Ordered()
    ensures r.box == RestBox
    ensures r.stability == s.stability && r.prevStability == s.prevStability
    ensures r.status == s.status && r.ut == s.ut
  {
    s.(box := RestBox)
  }

  /* Persistence: a saved node maps field names to numbers. */

  const KeyHeightMin := "ullageHeightMin"
  const KeyHeightMax := "ullageHeightMax"
  const KeyRadialMin := "ullageRadialMin"
  const KeyRadialMax := "ullageRadialMax"
  const KeyUT := "UT"

  const PersistedKeys: set<string> := {KeyHeightMin, KeyHeightMax, KeyRadialMin, KeyRadialMax, KeyUT}

  /** Writes the four bounds and the timestamp. */
  function Save(s: Simulator): (node: map<string, real>)
    ensures node.Keys == PersistedKeys
    ensures node[KeyHeightMin] == s.box.heightMin && node[KeyHeightMax] == s.box.heightMax
    ensures node[KeyRadialMin] == s.box.radialMin && node[KeyRadialMax] == s.box.radialMax
    ensures node[KeyUT] == s.ut
  {
    map[KeyHeightMin := s.box.heightMin,
        KeyHeightMax := s.box.heightMax,
        KeyRadialMin := s.box.radialMin,
        KeyRadialMax := s.box.radialMax,
        KeyUT := s.ut]
  }

  /** `ConfigNode.TryGetValue`: the stored value if the key is present, otherwise the current one. */
  function TryGetValue(node: map<string, real>, key: string, current: real): (r: real)
    ensures key in node ==> r == node[key]
    ensures key !in node ==> r == current
  {
    if key in node then node[key] else current
  }

  /**
    Reads back whatever of the five persisted fields the node holds; a missing
    node changes nothing, and a missing key keeps that field's current value.
   */
  function Load(node: Option<map<string, real>>, s: Simulator): (r: Simulator)
    ensures node.None? ==> r == s
    ensures r.stability == s.stability && r.prevStability == s.prevStability && r.status == s.status
    ensures node.Some? && KeyHeightMin in node.value ==> r.box.heightMin == node.value[KeyHeightMin]
    ensures node.Some? && KeyHeightMax in node.value ==> r.box.heightMax == node.value[KeyHeightMax]
    ensures node.Some? && KeyRadialMin in node.value ==> r.box.radialMin == node.value[KeyRadialMin]
    ensures node.Some? && KeyRadialMax in node.value ==> r.box.radialMax == node.value[KeyRadialMax]
    ensures node.Some? && KeyUT in node.value ==> r.ut == node.value[KeyUT]
    ensures (node.None? || KeyHeightMin !in node.value) ==> r.box.heightMin == s.box.heightMin
    ensures (node.None? || KeyHeightMax !in node.value) ==> r.box.heightMax == s.box.heightMax
    ensures (node.None? || KeyRadialMin !in node.value) ==> r.box.radialMin == s.box.radialMin
    ensures (node.None? || KeyRadialMax !in node.value) ==> r.box.radialMax == s.box.radialMax
    ensures (node.None? || KeyUT !in node.value) ==> r.ut == s.ut
  {
    match node
    case None => s
    case Some(m) =>
      s.(box := Box(TryGetValue(m, KeyHeightMin, s.box.heightMin),
                    TryGetValue(m, KeyHeightMax, s.box.heightMax),
                    TryGetValue(m, KeyRadialMin, s.box.radialMin),
                    TryGetValue(m, KeyRadialMax, s.box.radialMax)),
         ut := TryGetValue(m, KeyUT, s.ut))
  }

  /** Loading a saved node into any simulator restores the five persisted fields. */
  lemma LoadSave(saved: Simulator, into: Simulator)
    ensures Load(Some(Save(saved)), into).box == saved.box
    ensures Load(Some(Save(saved)), into).ut == saved.ut
    ensures Load(Some(Save(saved)), saved) == saved
  {
  }

  /** A node with no persisted key, and in particular an empty node, changes nothing. */
  lemma LoadWithoutKeys(node: map<string, real>, s: Simulator)
    requires node.Keys !! PersistedKeys
    ensures Load(Some(node), s) == s
  {
  }

  /** A node holding only the lower height bound changes only that bound. */
  lemma LoadOnlyHeightMin(v: real, s: Simulator)
    ensures Load(Some(map[KeyHeightMin := v]), s) == s.(box := s.box.(heightMin := v))
  {
  }

  /** Loading is idempotent: a second load of the same node changes nothing more. */
  lemma LoadIdempotent(node: Option<map<string, real>>, s: Simulator)
    ensures Load(node, Load(node, s)) == Load(node, s)
  {
  }

  /** `Reset` is idempotent and agrees with the parameterless constructor on the box. */
  lemma ResetIdempotent(s: Simulator)
    ensures Reset(Reset(s)) == Reset(s)
    ensures Reset(s).box == New().box
  {
  }
}

=== FILE: ullage_status.dfy ===
/**
  What the ullage simulator reports: the ignition probability derived from
  the stability score, the six-tier status label cached with hysteresis, and
  the three-colour classification shown next to it.
 */
module UllageStatus {
  import opened UtilMath
  import opened Settings
  import opened UllageState

  const VeryStableThreshold: real := 0.996
  const StableThreshold: real := 0.95
  const RiskyThreshold: real := 0.75
  const VeryRiskyThreshold: real := 0.3
  const UnstableThreshold: real := 0.15

  /** The least change of stability that refreshes the cached label. */
  const MinStabilityDiffForUpdate: real := 0.0005

  /**
    The base of the probability: a stability of at least 0.996 counts as
    certain. Rounding only ever raises a stability of at most 1, and the base
    never exceeds 1.
   */
  function ProbabilityBase(stability: real): (r: real)
    ensures r <= 1.0
    ensures r == 1.0 <==> stability >= VeryStableThreshold
    ensures r < 1.0 ==> r == stability
    ensures stability <= 1.0 ==> stability <= r
  {
    if stability >= VeryStableThreshold then 1.0 else stability
  }

  /** Rounding up near-certain stability keeps the base non-decreasing in the stability. */
  lemma ProbabilityBaseMonotone(s1: real, s2: real)
    requires s1 <= s2
    ensures ProbabilityBase(s1) <= ProbabilityBase(s2)
  {
  }

  /** `GetPropellantProbability`: the rounded stability raised to the configured power. */
  function Probability(stability: real, cfg: Settings, n: Numerics): (r: real)
    ensures stability >= VeryStableThreshold ==> r == n.pow(1.0, cfg.stabilityPower)
    ensures stability < VeryStableThreshold ==> r == n.pow(stability, cfg.stabilityPower)
  {
    n.pow(ProbabilityBase(stability), cfg.stabilityPower)
  }

  /** Near-certain stability gives probability 1 whatever the exponent. */
  lemma ProbabilityOfVeryStable(stability: real, cfg: Settings, n: Numerics)
    requires n.PowOfOneIsOne()
    requires stability >= VeryStableThreshold
    ensures Probability(stability, cfg, n) == 1.0
  {
    assert n.pow(1.0, cfg.stabilityPower) == 1.0;
  }

  /** `x ↦ pow(x, p)` is non-decreasing on the non-negative reals. */
  ghost predicate PowMonotone(n: Numerics, p: real) {
    forall a: real, b: real :: 0.0 <= a <= b ==> n.pow(a, p) <= n.pow(b, p)
  }

  /** For an exponent under which power is monotone, the probability is non-decreasing in the stability. */
  lemma ProbabilityMonotone(s1: real, s2: real, cfg: Settings, n: Numerics)
    requires PowMonotone(n, cfg.stabilityPower)
    requires 0.0 <= s1 <= s2
    ensures Probability(s1, cfg, n) <= Probability(s2, cfg, n)
  {
    ProbabilityBaseMonotone(s1, s2);
    var b1, b2 := ProbabilityBase(s1), ProbabilityBase(s2);
    assert 0.0 <= b1 <= b2;
    assert n.pow(b1, cfg.stabilityPower) <= n.pow(b2, cfg.stabilityPower);
  }

  /** The tier whose threshold the stability first meets, from the best tier down. */
  function ClassifyTier(stability: real): (t: Tier)
    ensures t == VeryStable <==> stability >= VeryStableThreshold
    ensures t == VeryUnstable <==> stability < UnstableThreshold
  {
    if stability >= VeryStableThreshold then VeryStable
    else if stability >= StableThreshold then Stable
    else if stability >= RiskyThreshold then Risky
    else if stability >= VeryRiskyThreshold then VeryRisky
    else if stability >= UnstableThreshold then Unstable
    else VeryUnstable
  }

  /** The tier thresholds in ascending order. */
  const Thresholds: seq<real> :=
    [UnstableThreshold, VeryRiskyThreshold, RiskyThreshold, StableThreshold, VeryStableThreshold]

  /** How good a tier is: 0 for very unstable up to 5 for very stable. */
  function Rank(t: Tier): (k: nat)
    ensures k <= |Thresholds|
  {
    match t
    case VeryUnstable => 0
    case Unstable => 1
    case VeryRisky => 2
    case Risky => 3
    case Stable => 4
    case VeryStable => 5
  }

  /** How many of the ascending thresholds `ts` the stability meets. */
  function CountMet(stability: real, ts: seq<real>): (k: nat)
    ensures k <= |ts|
  {
    if |ts| == 0 then 0
    else (if ts[0] <= stability then 1 else 0) + CountMet(stability, ts[1..])
  }

  /** Meeting more thresholds needs no less stability. */
  lemma {:induction false} CountMetMonotone(s1: real, s2: real, ts: seq<real>)
    requires s1 <= s2
    ensures CountMet(s1, ts) <= CountMet(s2, ts)
  {
    if |ts| > 0 {
      CountMetMonotone(s1, s2, ts[1..]);
    }
  }

  /**
    The classifier agrees with the reference reading of the thresholds: a
    tier's rank is the number of thresholds the stability meets.
   */
  lemma RankCountsThresholdsMet(stability: real)
    ensures Rank(ClassifyTier(stability)) == CountMet(stability, Thresholds)
  {
    var t1 := [VeryRiskyThreshold, RiskyThreshold, StableThreshold, VeryStableThreshold];
    var t2 := [RiskyThreshold, StableThreshold, VeryStableThreshold];
    var t3 := [StableThreshold, VeryStableThreshold];
    var t4 := [VeryStableThreshold];
    assert Thresholds[1..] == t1 && t1[1..] == t2 && t2[1..] == t3 && t3[1..] == t4 && t4[1..] == [];
    var c4 := if VeryStableThreshold <= stability then 1 else 0;
    assert CountMet(stability, t4) == c4;
    var c3 := (if StableThreshold <= stability then 1 else 0) + c4;
    assert CountMet(stability, t3) == c3;
    var c2 := (if RiskyThreshold <= stability then 1 else 0) + c3;
    assert CountMet(stability, t2) == c2;
    var c1 := (if VeryRiskyThreshold <= stability then 1 else 0) + c2;
    assert CountMet(stability, t1) == c1;
    assert CountMet(stability, Thresholds) == (if UnstableThreshold <= stability then 1 else 0) + c1;
  }

  /** A higher stability never gets a worse tier. */
  lemma TierMonotone(s1: real, s2: real)
    requires s1 <= s2
    ensures Rank(ClassifyTier(s1)) <= Rank(ClassifyTier(s2))
  {
    RankCountsThresholdsMet(s1);
    RankCountsThresholdsMet(s2);
    CountMetMonotone(s1, s2, Thresholds);
  }

  datatype Colour = White | NotSoGoodOrange | Red

  /** The colour shown next to the status, always from the current stability. */
  function ColourOf(stability: real): (c: Colour)
    ensures c == White <==> stability >= StableThreshold
    ensures c == Red <==> stability < RiskyThreshold
  {
    if stability >= StableThreshold then White
    else if stability >= RiskyThreshold then NotSoGoodOrange
    else Red
  }

  /** The colour is white for the two stable tiers, orange for risky and red below. */
  lemma ColourMatchesTier(stability: real)
    ensures ColourOf(stability) == White <==> ClassifyTier(stability) in {VeryStable, Stable}
    ensures ColourOf(stability) == NotSoGoodOrange <==> ClassifyTier(stability) == Risky
    ensures ColourOf(stability) == Red <==> ClassifyTier(stability) in {VeryRisky, Unstable, VeryUnstable}
  {
  }

  /**
    `SetStateString`: unless the stability has moved by at least 0.0005 since
    the label was last computed, nothing changes; otherwise the label is
    recomputed from the current stability, which is remembered.
   */
  function RefreshStatus(s: Simulator, cfg: Settings, n: Numerics): (r: Simulator)
    ensures Abs(s.stability - s.prevStability) < MinStabilityDiffForUpdate ==> r == s
    ensures Abs(s.stability - s.prevStability) >= MinStabilityDiffForUpdate ==>
      && r.prevStability == s.stability
      && r.status.tier == ClassifyTier(s.stability)
      && r.status.probability == Some(Probability(s.stability, cfg, n))
    ensures r.box == s.box && r.stability == s.stability && r.ut == s.ut
  {
    if Abs(s.stability - s.prevStability) < MinStabilityDiffForUpdate then s
    else
      s.(prevStability := s.stability,
         status := Label(ClassifyTier(s.stability), Some(Probability(s.stability, cfg, n))))
  }

  /** `GetPropellantStatus`: the colour of the current stability, and the label after a refresh. */
  function GetPropellantStatus(s: Simulator, cfg: Settings, n: Numerics): (r: (Label, Colour, Simulator))
    ensures r.2 == RefreshStatus(s, cfg, n) && r.0 == r.2.status
    ensures r.1 == ColourOf(s.stability)
    ensures Abs(s.stability - s.prevStability) >= MinStabilityDiffForUpdate ==>
      && (r.1 == White <==> r.0.tier in {VeryStable, Stable})
      && (r.1 == Red <==> r.0.tier in {VeryRisky, Unstable, VeryUnstable})
    ensures StatusConsistent(s, cfg, n) ==> StatusConsistent(r.2, cfg, n)
  {
    var refreshed := RefreshStatus(s, cfg, n);
    ColourMatchesTier(s.stability);
    (refreshed.status, ColourOf(s.stability), refreshed)
  }

  /** A second status query straight after a first changes nothing. */
  lemma RefreshIdempotent(s: Simulator, cfg: Settings, n: Numerics)
    ensures RefreshStatus(RefreshStatus(s, cfg, n), cfg, n) == RefreshStatus(s, cfg, n)
  {
  }

  /**
    A label that carries a probability was computed from the remembered
    stability: its tier and its probability are that stability's. (The initial
    label carries none.)
   */
  predicate StatusConsistent(s: Simulator, cfg: Settings, n: Numerics) {
    s.status.probability.Some? ==>
      && s.status.tier == ClassifyTier(s.prevStability)
      && s.status.probability == Some(Probability(s.prevStability, cfg, n))
  }

  /** `SetPropellantStability`: overrides the stability score and nothing else. */
  function SetPropellantStability(s: Simulator, stability: real): (r: Simulator)
    ensures r.stability == stability
    ensures r.box == s.box && r.ut == s.ut && r.prevStability == s.prevStability && r.status == s.status
  {
    s.(stability := stability)
  }

  /** `GetPropellantStability`: the current stability score. */
  function GetPropellantStability(s: Simulator): (r: real)
    ensures r == s.stability
  {
    s.stability
  }

  /** Reading back a forced stability yields it, and forcing the current stability changes nothing. */
  lemma SetThenGetStability(s: Simulator, stability: real)
    ensures GetPropellantStability(SetPropellantStability(s, stability)) == stability
    ensures SetPropellantStability(s, GetPropellantStability(s)) == s
  {
  }

  /** Forcing a stability of 0.999 yields probability 1 whatever the exponent. */
  lemma ForcedNearCertainStability(s: Simulator, cfg: Settings, n: Numerics)
    requires n.PowOfOneIsOne()
    ensures Probability(SetPropellantStability(s, 0.999).stability, cfg, n) == 1.0
  {
    ProbabilityOfVeryStable(0.999, cfg, n);
  }
}

=== FILE: ullage_update.dfy ===
/**
  One simulation tick of the ullage simulator: time reconciliation against
  the optional universal-time clock, natural diffusion towards the rest box,
  four clamped deformation steps (axial and sideways translation, yaw/pitch
  and roll rotation) and the stability score derived from the resulting box.
 */
module UllageUpdate {
  import opened UtilMath
  import opened Settings
  import opened UllageState

  /** The caller's inputs for one tick. */
  datatype Tick = Tick(
    localAcceleration: Vector3d,
    rotation: Vector3d,
    deltaTime: real,
    ventingAcc: real,
    fuelRatio: real)
  {
    /** Scales every disturbance; it is positive exactly when the fuel ratio exceeds -0.5. */
    function FuelRatioFactor(): (f: real)
      ensures f > 0.0 <==> fuelRatio > -0.5
      ensures f == 0.0 <==> fuelRatio == -0.5
    {
      (0.5 + fuelRatio) * (1.0 / 1.4)
    }
  }

  /**
    The time that feeds natural diffusion, and the timestamp to keep. With a
    clock the elapsed time runs from the stored timestamp to the clock's
    reading, which becomes the new timestamp; without one it is the caller's
    `deltaTime` and the timestamp stays.
   */
  function ElapsedTime(ut: real, deltaTime: real, clock: Option<real>): (r: (real, real))
    ensures clock.Some? ==> r.1 == clock.value && ut + r.0 == r.1
    ensures clock.None? ==> r.1 == ut && r.0 == deltaTime
  {
    match clock
    case None => (deltaTime, ut)
    case Some(now) => (now - ut, now)
  }

  /**
    Natural diffusion happens only while the venting acceleration is at most
    its threshold and the acceleration is strictly below the diffusion threshold.
   */
  predicate DiffusionApplies(cfg: Settings, t: Tick)
    ensures t.ventingAcc > cfg.ventingAccThreshold ==> !DiffusionApplies(cfg, t)
    ensures cfg.naturalDiffusionAccThresh == 0.0 ==> !DiffusionApplies(cfg, t)
  {
    && t.ventingAcc <= cfg.ventingAccThreshold
    && t.localAcceleration.SqrMagnitude() < cfg.naturalDiffusionAccThresh * cfg.naturalDiffusionAccThresh
  }

  /** The acceleration threshold is squared before the comparison, so only its magnitude matters. */
  lemma DiffusionThresholdSign(cfg: Settings, t: Tick)
    ensures DiffusionApplies(cfg.(naturalDiffusionAccThresh := -cfg.naturalDiffusionAccThresh), t) == DiffusionApplies(cfg, t)
  {
    var a := cfg.naturalDiffusionAccThresh;
    assert (-a) * (-a) == a * a;
  }

  /**
    The two divisions of the diffusion step (by the venting threshold and by
    the fuel ratio factor) have non-zero divisors whenever the step runs.
   */
  predicate Computable(cfg: Settings, t: Tick) {
    DiffusionApplies(cfg, t) ==> cfg.ventingAccThreshold != 0.0 && t.fuelRatio != -0.5
  }

  /**
    The diffusion strength, capped at 1. It is non-negative when the venting
    acceleration does not exceed a positive threshold, the fuel ratio factor is
    positive and no time has run backwards.
   */
  function VentingConst(cfg: Settings, t: Tick, elapsed: real): (r: real)
    requires cfg.ventingAccThreshold != 0.0 && t.fuelRatio != -0.5
    ensures r <= 1.0
  {
    Min(1.0, (1.0 - t.ventingAcc / cfg.ventingAccThreshold) * (1.0 / t.FuelRatioFactor()) * elapsed)
  }

  /**
    The diffusion strength is non-negative when the venting acceleration does
    not exceed a positive threshold, the fuel ratio factor is positive and no
    time has run backwards.
   */
  lemma VentingConstNonNegative(cfg: Settings, t: Tick, elapsed: real)
    requires cfg.ventingAccThreshold > 0.0 && t.ventingAcc <= cfg.ventingAccThreshold
    requires t.fuelRatio > -0.5 && elapsed >= 0.0
    ensures 0.0 <= VentingConst(cfg, t, elapsed) <= 1.0
  {
    var venting := 1.0 - t.ventingAcc / cfg.ventingAccThreshold;
    var recip := 1.0 / t.FuelRatioFactor();
    assert t.ventingAcc / cfg.ventingAccThreshold <= 1.0;
    ProductNonNeg(venting, recip);
    ProductNonNeg(venting * recip, elapsed);
  }


  /**
    Relaxation towards the rest box, by unclamped interpolation: every bound's
    distance to its rest value is multiplied by `1 - factor` (the heights use
    `tY`, the radii `tX`), so a factor above 1 overshoots and a negative one
    pushes away.
   */
  function Diffuse(b: Box, tX: real, tY: real): (r: Box)
    ensures r.heightMin - RestBox.heightMin == (1.0 - tY) * (b.heightMin - RestBox.heightMin)
    ensures r.heightMax - RestBox.heightMax == (1.0 - tY) * (b.heightMax - RestBox.heightMax)
    ensures r.radialMin - RestBox.radialMin == (1.0 - tX) * (b.radialMin - RestBox.radialMin)
    ensures r.radialMax - RestBox.radialMax == (1.0 - tX) * (b.radialMax - RestBox.radialMax)
  {
    Box(LerpUnclamped(b.heightMin, 0.05, tY),
        LerpUnclamped(b.heightMax, 0.95, tY),
        LerpUnclamped(b.radialMin, 0.0, tX),
        LerpUnclamped(b.radialMax, 0.95, tX))
  }

  /** With factors in `[0, 1]` every bound moves towards its rest value without passing it. */
  lemma DiffuseMovesToward(b: Box, tX: real, tY: real)
    requires 0.0 <= tX <= 1.0 && 0.0 <= tY <= 1.0
    ensures MovesToward(b.heightMin, Diffuse(b, tX, tY).heightMin, RestBox.heightMin)
    ensures MovesToward(b.heightMax, Diffuse(b, tX, tY).heightMax, RestBox.heightMax)
    ensures MovesToward(b.radialMin, Diffuse(b, tX, tY).radialMin, RestBox.radialMin)
    ensures MovesToward(b.radialMax, Diffuse(b, tX, tY).radialMax, RestBox.radialMax)
  {
    LerpMovesToward(b.heightMin, 0.05, tY);
    LerpMovesToward(b.heightMax, 0.95, tY);
    LerpMovesToward(b.radialMin, 0.0, tX);
    LerpMovesToward(b.radialMax, 0.95, tX);
  }

  /** With factors in `[0, 1]` diffusion keeps an ordered box ordered and a legal box legal. */
  lemma DiffusePreservesBox(b: Box, tX: real, tY: real)
    requires 0.0 <= tX <= 1.0 && 0.0 <= tY <= 1.0
    ensures b.Ordered() ==> Diffuse(b, tX, tY).Ordered()
    ensures b.InRange() ==> Diffuse(b, tX, tY).InRange()
  {
    var r := Diffuse(b, tX, tY);
    DiffuseMovesToward(b, tX, tY);
    if b.Ordered() {
      assert r.heightMax - r.heightMin == (1.0 - tY) * (b.heightMax - b.heightMin) + 0.9 * tY;
      assert r.radialMax - r.radialMin == (1.0 - tX) * (b.radialMax - b.radialMin) + 0.95 * tX;
      ProductNonNeg(1.0 - tY, b.heightMax - b.heightMin);
      ProductNonNeg(1.0 - tX, b.radialMax - b.radialMin);
    }
  }

  /**
    The shape of every clamped deformation step: each bound moves by its own
    amount and is clamped into its legal interval. Ordered amounts keep an
    ordered box ordered, and zero amounts leave a legal box alone.
   */
  function Shift(b: Box, dHeightMin: real, dHeightMax: real, dRadialMin: real, dRadialMax: real): (r: Box)
    ensures r.InRange()
    ensures b.Ordered() && dHeightMin <= dHeightMax && dRadialMin <= dRadialMax ==> r.Ordered()
    ensures b.InRange() && dHeightMin == dHeightMax == dRadialMin == dRadialMax == 0.0 ==> r == b
    ensures b.InRange() && dHeightMin <= 0.0 <= dHeightMax ==>
      r.heightMin <= b.heightMin && b.heightMax <= r.heightMax
    ensures b.InRange() && dRadialMin <= 0.0 <= dRadialMax ==>
      r.radialMin <= b.radialMin && b.radialMax <= r.radialMax
    ensures b.InRange() ==>
      && (dHeightMin >= 0.0 ==> r.heightMin >= b.heightMin) && (dHeightMin <= 0.0 ==> r.heightMin <= b.heightMin)
      && (dHeightMax >= 0.0 ==> r.heightMax >= b.heightMax) && (dHeightMax <= 0.0 ==> r.heightMax <= b.heightMax)
      && (dRadialMin >= 0.0 ==> r.radialMin >= b.radialMin) && (dRadialMin <= 0.0 ==> r.radialMin <= b.radialMin)
      && (dRadialMax >= 0.0 ==> r.radialMax >= b.radialMax) && (dRadialMax <= 0.0 ==> r.radialMax <= b.radialMax)
  {
    Box(Clamp(b.heightMin + dHeightMin, 0.0, 0.9),
        Clamp(b.heightMax + dHeightMax, 0.1, 1.0),
        Clamp(b.radialMin + dRadialMin, 0.0, 0.9),
        Clamp(b.radialMax + dRadialMax, 0.1, 1.0))
  }

  /** The tick's acceleration times the caller's time step. */
  function AccelerationAmount(t: Tick): (v: Vector3d)
    ensures t.localAcceleration == Vector3d(0.0, 0.0, 0.0) ==> v == Vector3d(0.0, 0.0, 0.0)
    ensures t.deltaTime == 0.0 ==> v == Vector3d(0.0, 0.0, 0.0)
    ensures t.deltaTime > 0.0 ==> (t.localAcceleration.y >= 0.0 <==> v.y >= 0.0)
  {
    ProductPos(t.deltaTime, t.localAcceleration.y);
    ProductPos(t.deltaTime, -t.localAcceleration.y);
    assert t.deltaTime * -t.localAcceleration.y == -(t.deltaTime * t.localAcceleration.y);
    ZeroProduct(t.deltaTime, t.localAcceleration.x);
    ZeroProduct(t.deltaTime, t.localAcceleration.y);
    ZeroProduct(t.deltaTime, t.localAcceleration.z);
    t.localAcceleration.Scale(t.deltaTime)
  }

  /** The radial widening of the axial step: non-negative for a non-negative coefficient and fuel ratio factor. */
  function AxialRadialFactor(cfg: Settings, t: Tick): (f: real)
    ensures cfg.translateAxialCoefficientX >= 0.0 && t.fuelRatio >= -0.5 ==> f >= 0.0
    ensures AccelerationAmount(t).y == 0.0 ==> f == 0.0
  {
    ProductNonNeg(Abs(AccelerationAmount(t).y), cfg.translateAxialCoefficientX);
    ProductNonNeg(Abs(AccelerationAmount(t).y) * cfg.translateAxialCoefficientX, t.FuelRatioFactor());
    Abs(AccelerationAmount(t).y) * cfg.translateAxialCoefficientX * t.FuelRatioFactor()
  }

  /** The signed height shift of the axial step, following the sign of the axial acceleration for a positive coefficient. */
  function AxialHeightFactor(cfg: Settings, t: Tick): (f: real)
    ensures AccelerationAmount(t).y == 0.0 ==> f == 0.0
    ensures cfg.translateAxialCoefficientY >= 0.0 && t.fuelRatio >= -0.5 ==>
      && (AccelerationAmount(t).y >= 0.0 ==> f >= 0.0)
      && (AccelerationAmount(t).y <= 0.0 ==> f <= 0.0)
  {
    var y, c, k := AccelerationAmount(t).y, cfg.translateAxialCoefficientY, t.FuelRatioFactor();
    ProductNonNeg(y, c);
    ProductNonNeg(y * c, k);
    ProductNonNeg(-y, c);
    ProductNonNeg(-y * c, k);
    assert (-y * c) * k == -(y * c * k);
    y * c * k
  }

  /**
    Forward/backward acceleration, scaled by the caller's time step and the
    fuel ratio factor: the axial component shifts both height bounds by the
    same amount and widens the radial range. Every bound ends in its legal
    interval, whatever the box before.
   */
  function TranslateAxial(b: Box, cfg: Settings, t: Tick): (r: Box)
    ensures r.InRange()
    ensures b.Ordered() && cfg.translateAxialCoefficientX >= 0.0 && t.fuelRatio >= -0.5 ==> r.Ordered()
    ensures b.InRange() && cfg.translateAxialCoefficientX >= 0.0 && t.fuelRatio >= -0.5 ==>
      r.radialMin <= b.radialMin && b.radialMax <= r.radialMax
    ensures b.InRange() && AxialHeightFactor(cfg, t) >= 0.0 ==> r.heightMin >= b.heightMin && r.heightMax >= b.heightMax
    ensures b.InRange() && AxialHeightFactor(cfg, t) <= 0.0 ==> r.heightMin <= b.heightMin && r.heightMax <= b.heightMax
    ensures b.InRange() && AccelerationAmount(t).y == 0.0 ==> r == b
  {
    var heightFac := AxialHeightFactor(cfg, t);
    var radialFac := AxialRadialFactor(cfg, t);
    Shift(b, heightFac, heightFac, -radialFac, radialFac)
  }

  /** The sideways acceleration's magnitude in the x/z plane, times the fuel ratio factor. */
  function SideFactor(n: Numerics, t: Tick): (f: real)
    ensures t.fuelRatio >= -0.5 ==> f >= 0.0
    ensures n.SqrtOfZeroIsZero() && t.localAcceleration == Vector3d(0.0, 0.0, 0.0) ==> f == 0.0
  {
    var mag := n.Magnitude(AccelerationAmount(t).Planar());
    ProductNonNeg(mag, t.FuelRatioFactor());
    ZeroProduct(mag, t.FuelRatioFactor());
    mag * t.FuelRatioFactor()
  }

  /**
    Sideways acceleration: its magnitude in the x/z plane, scaled by the
    caller's time step and the fuel ratio factor, widens the height range and
    shifts both radial bounds by the same amount.
   */
  function TranslateSideways(b: Box, cfg: Settings, n: Numerics, t: Tick): (r: Box)
    ensures r.InRange()
    ensures b.Ordered() && cfg.translateSidewayCoefficientY >= 0.0 && t.fuelRatio >= -0.5 ==> r.Ordered()
    ensures b.InRange() && cfg.translateSidewayCoefficientY >= 0.0 && t.fuelRatio >= -0.5 ==>
      r.heightMin <= b.heightMin && b.heightMax <= r.heightMax
    ensures b.InRange() && cfg.translateSidewayCoefficientX >= 0.0 && t.fuelRatio >= -0.5 ==>
      r.radialMin >= b.radialMin && r.radialMax >= b.radialMax
    ensures b.InRange() && SideFactor(n, t) == 0.0 ==> r == b
  {
    var sideFactor := SideFactor(n, t);
    ProductNonNeg(sideFactor, cfg.translateSidewayCoefficientY);
    ProductNonNeg(sideFactor, cfg.translateSidewayCoefficientX);
    ZeroProduct(sideFactor, cfg.translateSidewayCoefficientY);
    ZeroProduct(sideFactor, cfg.translateSidewayCoefficientX);
    var sideY := sideFactor * cfg.translateSidewayCoefficientY;
    var sideX := sideFactor * cfg.translateSidewayCoefficientX;
    Shift(b, -sideY, sideY, sideX, sideX)
  }

  /** The raw rotation rate's magnitude in the x/z plane times a yaw/pitch coefficient. */
  function YawPitchAmount(n: Numerics, rotation: Vector3d, coefficient: real): (a: real)
    ensures coefficient >= 0.0 ==> a >= 0.0
    ensures n.Magnitude(rotation.Planar()) == 0.0 ==> a == 0.0
  {
    var mag := n.Magnitude(rotation.Planar());
    ProductNonNeg(mag, coefficient);
    ZeroProduct(mag, coefficient);
    mag * coefficient
  }

  /**
    The yaw/pitch clamp of the lower height bound: below its midpoint 0.45 it
    is raised and kept in `[0, 0.45]`, otherwise lowered and kept in
    `[0.45, 0.9]`. A non-negative amount moves a legal bound towards the
    midpoint without crossing it.
   */
  function YawPitchLower(h: real, amount: real): (r: real)
    ensures if h < 0.45 then 0.0 <= r <= 0.45 else 0.45 <= r <= 0.9
    ensures amount >= 0.0 && 0.0 <= h <= 0.9 ==> MovesToward(h, r, 0.45)
    ensures amount == 0.0 && 0.0 <= h <= 0.9 ==> r == h
  {
    if h < 0.45 then Clamp(h + amount, 0.0, 0.45) else Clamp(h - amount, 0.45, 0.9)
  }

  /** The same for the upper height bound around its midpoint 0.55, within `[0.1, 0.55]` and `[0.55, 1]`. */
  function YawPitchUpper(h: real, amount: real): (r: real)
    ensures if h < 0.55 then 0.1 <= r <= 0.55 else 0.55 <= r <= 1.0
    ensures amount >= 0.0 && 0.1 <= h <= 1.0 ==> MovesToward(h, r, 0.55)
    ensures amount == 0.0 && 0.1 <= h <= 1.0 ==> r == h
  {
    if h < 0.55 then Clamp(h + amount, 0.1, 0.55) else Clamp(h - amount, 0.55, 1.0)
  }

  /**
    With a non-negative amount the two height clamps keep an ordered pair
    ordered, also when the lower bound is above its midpoint and the upper
    one below its own.
   */
  lemma YawPitchHeightsOrdered(lo: real, hi: real, amount: real)
    requires lo <= hi && amount >= 0.0
    ensures YawPitchLower(lo, amount) <= YawPitchUpper(hi, amount)
  {
    if lo < 0.45 && hi < 0.55 {
      ClampMonotone(lo + amount, hi + amount, 0.0, 0.45, 0.1, 0.55);
    } else if lo >= 0.45 && hi >= 0.55 {
      ClampMonotone(lo - amount, hi - amount, 0.45, 0.9, 0.55, 1.0);
    }
  }

  /**
    Yaw/pitch rotation, from the raw rotation rate's magnitude in the x/z
    plane (scaled neither by the time step nor by the fuel ratio factor). Each
    height bound stays on its side of its midpoint (0.45 for the lower, 0.55
    for the upper bound); the radial range widens.
   */
  function RotateYawPitch(b: Box, cfg: Settings, n: Numerics, rotation: Vector3d): (r: Box)
    ensures if b.heightMin < 0.45 then 0.0 <= r.heightMin <= 0.45 else 0.45 <= r.heightMin <= 0.9
    ensures if b.heightMax < 0.55 then 0.1 <= r.heightMax <= 0.55 else 0.55 <= r.heightMax <= 1.0
    ensures r.InRange()
    ensures b.InRange() && cfg.rotateYawPitchCoefficientX >= 0.0 ==>
      r.radialMin <= b.radialMin && b.radialMax <= r.radialMax
    ensures b.InRange() && n.Magnitude(rotation.Planar()) == 0.0 ==> r == b
  {
    var ypY := YawPitchAmount(n, rotation, cfg.rotateYawPitchCoefficientY);
    var ypX := YawPitchAmount(n, rotation, cfg.rotateYawPitchCoefficientX);
    Box(YawPitchLower(b.heightMin, ypY),
        YawPitchUpper(b.heightMax, ypY),
        Clamp(b.radialMin - ypX, 0.0, 0.9),
        Clamp(b.radialMax + ypX, 0.1, 1.0))
  }

  /**
    With non-negative coefficients, yaw/pitch moves each legal height bound
    towards its midpoint without crossing it, and keeps an ordered box
    ordered, also when the lower bound is above its midpoint and the upper one
    below its own.
   */
  lemma RotateYawPitchTowardMidpoints(b: Box, cfg: Settings, n: Numerics, rotation: Vector3d)
    requires cfg.rotateYawPitchCoefficientX >= 0.0 && cfg.rotateYawPitchCoefficientY >= 0.0
    ensures 0.0 <= b.heightMin <= 0.9 ==> MovesToward(b.heightMin, RotateYawPitch(b, cfg, n, rotation).heightMin, 0.45)
    ensures 0.1 <= b.heightMax <= 1.0 ==> MovesToward(b.heightMax, RotateYawPitch(b, cfg, n, rotation).heightMax, 0.55)
    ensures b.Ordered() ==> RotateYawPitch(b, cfg, n, rotation).Ordered()
  {
    var ypY := YawPitchAmount(n, rotation, cfg.rotateYawPitchCoefficientY);
    var ypX := YawPitchAmount(n, rotation, cfg.rotateYawPitchCoefficientX);
    if b.Ordered() {
      YawPitchHeightsOrdered(b.heightMin, b.heightMax, ypY);
      ClampLowerBelowUpper(b.radialMin - ypX, b.radialMax + ypX);
    }
  }

  /** The roll rate times the caller's time step and the fuel ratio factor, as a non-negative amount. */
  function RollFactor(t: Tick): (f: real)
    ensures t.fuelRatio >= -0.5 ==> f >= 0.0
    ensures t.rotation == Vector3d(0.0, 0.0, 0.0) ==> f == 0.0
  {
    ProductNonNeg(Abs(t.rotation.Scale(t.deltaTime).y), t.FuelRatioFactor());
    Abs(t.rotation.Scale(t.deltaTime).y) * t.FuelRatioFactor()
  }

  /**
    Roll rotation: the height range widens and both radial bounds shift by the
    same amount. As the last deformation step, its clamps are what leave every
    bound of the updated box in its legal interval.
   */
  function RotateRoll(b: Box, cfg: Settings, t: Tick): (r: Box)
    ensures r.InRange()
    ensures b.Ordered() && cfg.rotateRollCoefficientY >= 0.0 && t.fuelRatio >= -0.5 ==> r.Ordered()
    ensures b.InRange() && cfg.rotateRollCoefficientY >= 0.0 && t.fuelRatio >= -0.5 ==>
      r.heightMin <= b.heightMin && b.heightMax <= r.heightMax
    ensures b.InRange() && cfg.rotateRollCoefficientX >= 0.0 && t.fuelRatio >= -0.5 ==>
      r.radialMin <= b.radialMin && r.radialMax <= b.radialMax
    ensures b.InRange() && RollFactor(t) == 0.0 ==> r == b
  {
    var absRot := RollFactor(t);
    ProductNonNeg(absRot, cfg.rotateRollCoefficientY);
    ProductNonNeg(absRot, cfg.rotateRollCoefficientX);
    ZeroProduct(absRot, cfg.rotateRollCoefficientY);
    ZeroProduct(absRot, cfg.rotateRollCoefficientX);
    var absRotX := absRot * cfg.rotateRollCoefficientX;
    var absRotY := absRot * cfg.rotateRollCoefficientY;
    Shift(b, -absRotY, absRotY, -absRotX, -absRotX)
  }

  /** The three intermediate terms of the stability score. */
  datatype StabilityTerms = StabilityTerms(bLevel: NonNegReal, pVertical: real, pHorizontal: real)

  /**
    `bLevel` grows with the box's area and shrinks with the fill ratio, within
    `[0, 15]`; `pVertical` (`pHorizontal`) is 1 while the lower height (radial)
    bound is at most 0.1 and 0 exactly when it is at least 0.3.
   */
  function Terms(b: Box, fuelRatio: real): (r: StabilityTerms)
    ensures 0.0 <= r.bLevel <= 15.0
    ensures 0.0 <= r.pVertical <= 1.0 && 0.0 <= r.pHorizontal <= 1.0
    ensures r.pVertical == 0.0 <==> b.heightMin >= 0.3
    ensures r.pHorizontal == 0.0 <==> b.radialMin >= 0.3
    ensures b.heightMin <= 0.1 ==> r.pVertical == 1.0
    ensures b.radialMin <= 0.1 ==> r.pHorizontal == 1.0
  {
    StabilityTerms(
      Clamp((b.heightMax - b.heightMin) * (b.radialMax - b.radialMin) * 10.0
              * Clamp(8.2 - 8.0 * fuelRatio, 0.0, 8.2) - 1.0, 0.0, 15.0),
      Clamp01(1.0 - (b.heightMin - 0.1) * 5.0),
      Clamp01(1.0 - (b.radialMin - 0.1) * 5.0))
  }

  /**
    The stability score, in `[0, 1]`; it is exactly 1 when the lower height
    bound or the lower radial bound has reached 0.3, and below 1 otherwise.
   */
  function StabilityOf(b: Box, fuelRatio: real, n: Numerics): (r: real)
    ensures 0.0 <= r <= 1.0
    ensures r == 1.0 <==> b.heightMin >= 0.3 || b.radialMin >= 0.3
  {
    var terms := Terms(b, fuelRatio);
    var p := terms.pVertical * terms.pHorizontal;
    var weight := 0.75 + n.sqrt(terms.bLevel);
    UnitProduct(terms.pVertical, terms.pHorizontal);
    ProductNonNeg(p, weight);
    ProductPos(terms.pVertical, terms.pHorizontal);
    ProductPos(p, weight);
    Max(0.0, 1.0 - p * weight)
  }

  /** Natural diffusion when it applies, with the strength of the elapsed time; otherwise the box unchanged. */
  function DiffusionStep(b: Box, cfg: Settings, t: Tick, elapsed: real): (r: Box)
    requires Computable(cfg, t)
    ensures !DiffusionApplies(cfg, t) ==> r == b
  {
    if DiffusionApplies(cfg, t) then
      var ventingConst := VentingConst(cfg, t, elapsed);
      Diffuse(b, cfg.naturalDiffusionRateX * ventingConst, cfg.naturalDiffusionRateY * ventingConst)
    else b
  }

  /**
    When natural diffusion applies, the step interpolates each bound with the
    rate times the diffusion strength. This unfolds `DiffusionStep` for proofs
    that hide its definition.
   */
  lemma DiffusionStepApplies(b: Box, cfg: Settings, t: Tick, elapsed: real)
    requires Computable(cfg, t) && DiffusionApplies(cfg, t)
    ensures
      var ventingConst := VentingConst(cfg, t, elapsed);
      DiffusionStep(b, cfg, t, elapsed) ==
        Diffuse(b, cfg.naturalDiffusionRateX * ventingConst, cfg.naturalDiffusionRateY * ventingConst)
  {
  }

  /** The box after diffusion and the four deformation steps, in the order the tick applies them. */
  function DeformedBox(b: Box, cfg: Settings, n: Numerics, t: Tick, elapsed: real): (r: Box)
    requires Computable(cfg, t)
    ensures r.InRange()
  {
    RotateRoll(
      RotateYawPitch(
        TranslateSideways(
          TranslateAxial(DiffusionStep(b, cfg, t, elapsed), cfg, t),
          cfg, n, t),
        cfg, n, t.rotation),
      cfg, t)
  }

  /**
    One tick. From any state, the updated box is legal and the stability score
    lies in `[0, 1]`; the cached status label and its stability are untouched.
   */
  function Update(s: Simulator, cfg: Settings, n: Numerics, t: Tick, clock: Option<real>): (r: Simulator)
    requires Computable(cfg, t)
    ensures r.box.InRange()
    ensures 0.0 <= r.stability <= 1.0
    ensures r.stability == 1.0 <==> r.box.heightMin >= 0.3 || r.box.radialMin >= 0.3
    ensures r.prevStability == s.prevStability && r.status == s.status
    ensures clock.None? ==> r.ut == s.ut
    ensures clock.Some? ==> r.ut == clock.value
  {
    var time := ElapsedTime(s.ut, t.deltaTime, clock);
    var b := DeformedBox(s.box, cfg, n, t, time.0);
    s.(box := b, stability := StabilityOf(b, t.fuelRatio, n), ut := time.1)
  }

  /**
    The box after a tick is the deformation pipeline applied with the tick's
    elapsed time, and its stability is the score of that box. This unfolds
    `Update` for proofs that hide its definition or `DeformedBox`'s.
   */
  lemma UpdateDeformsBox(s: Simulator, cfg: Settings, n: Numerics, t: Tick, clock: Option<real>)
    requires Computable(cfg, t)
    ensures Update(s, cfg, n, t, clock).box == DeformedBox(s.box, cfg, n, t, ElapsedTime(s.ut, t.deltaTime, clock).0)
    ensures Update(s, cfg, n, t, clock).stability == StabilityOf(Update(s, cfg, n, t, clock).box, t.fuelRatio, n)
  {
  }
}

=== FILE: util_math.dfy ===
/**
  Numeric helpers the ullage simulation is written in terms of: the clamps and
  the unclamped linear interpolation of the game's `UtilMath`, the absolute
  value, minimum and maximum of `System.Math`, a three-component vector, and
  the two transcendental functions (square root and power), which are kept
  abstract and handed in by the caller.

  All numbers are mathematical reals: rounding, NaN and infinities of IEEE
  doubles are not modelled.
 */
module UtilMath {

  datatype Option<+T> = None | Some(value: T)

  type NonNegReal = r: real | r >= 0.0

  /** `UtilMath.Clamp`: `x` moved into `[lo, hi]`. */
  function Clamp(x: real, lo: real, hi: real): (r: real)
    requires lo <= hi
    ensures lo <= r <= hi
    ensures lo <= x <= hi ==> r == x
    ensures x < lo ==> r == lo
    ensures hi < x ==> r == hi
  {
    if x < lo then lo else if x > hi then hi else x
  }

  /** `UtilMath.Clamp01`. */
  function Clamp01(x: real): (r: real)
    ensures 0.0 <= r <= 1.0
    ensures 0.0 <= x <= 1.0 ==> r == x
  {
    Clamp(x, 0.0, 1.0)
  }

  /** `UtilMath.LerpUnclamped`: the factor `t` may lie outside `[0, 1]`. */
  function LerpUnclamped(a: real, b: real, t: real): (r: real)
    ensures r - b == (1.0 - t) * (a - b)
  {
    a + (b - a) * t
  }

  function Abs(x: real): (r: real)
    ensures r >= 0.0
    ensures r == x || r == -x
  {
    if x < 0.0 then -x else x
  }

  function Min(a: real, b: real): (r: real)
    ensures r <= a && r <= b
    ensures r == a || r == b
  {
    if a <= b then a else b
  }

  function Max(a: real, b: real): (r: real)
    ensures r >= a && r >= b
    ensures r == a || r == b
  {
    if a >= b then a else b
  }

  /** Clamping is monotone in the value and in both bounds. */
  lemma ClampMonotone(x: real, y: real, lo1: real, hi1: real, lo2: real, hi2: real)
    requires lo1 <= hi1 && lo2 <= hi2
    requires x <= y && lo1 <= lo2 && hi1 <= hi2
    ensures Clamp(x, lo1, hi1) <= Clamp(y, lo2, hi2)
  {
  }

  /** The two legal intervals of a lower and an upper bound keep an ordered pair ordered. */
  lemma ClampLowerBelowUpper(x: real, y: real)
    requires x <= y
    ensures Clamp(x, 0.0, 0.9) <= Clamp(y, 0.1, 1.0)
  {
    ClampMonotone(x, y, 0.0, 0.9, 0.1, 1.0);
  }

  /** A product of two values in `[0, 1]` lies in `[0, 1]`. */
  lemma UnitProduct(a: real, b: real)
    requires 0.0 <= a <= 1.0 && 0.0 <= b <= 1.0
    ensures 0.0 <= a * b <= 1.0
  {
    ProductNonNeg(a, b);
    ProductNonNeg(a, 1.0 - b);
    assert a - a * b == a * (1.0 - b);
  }

  /** Two positive factors have a positive product. */
  lemma ProductPos(a: real, b: real)
    ensures a > 0.0 && b > 0.0 ==> a * b > 0.0
  {
  }

  /** `next` lies between `from` and `target`, possibly at either end. */
  predicate MovesToward(from: real, next: real, target: real) {
    && (from <= target ==> from <= next <= target)
    && (target <= from ==> target <= next <= from)
  }

  /** Interpolating with a factor in `[0, 1]` moves towards the target without passing it. */
  lemma LerpMovesToward(a: real, target: real, t: real)
    requires 0.0 <= t <= 1.0
    ensures MovesToward(a, LerpUnclamped(a, target, t), target)
  {
    var r := LerpUnclamped(a, target, t);
    assert r - target == (1.0 - t) * (a - target);
    assert a - r == t * (a - target);
    if a <= target {
      ProductNonNeg(1.0 - t, target - a);
      ProductNonNeg(t, target - a);
    } else {
      ProductNonNeg(1.0 - t, a - target);
      ProductNonNeg(t, a - target);
    }
  }

  /** The `Vector3d` of the game, by value. */
  datatype Vector3d = Vector3d(x: real, y: real, z: real) {

    /** The vector times a scalar, component by component. */
    function Scale(k: real): (r: Vector3d)
      ensures r.x == k * x && r.y == k * y && r.z == k * z
      ensures x == 0.0 && y == 0.0 && z == 0.0 ==> r == Vector3d(0.0, 0.0, 0.0)
    {
      ZeroProduct(x, k);
      ZeroProduct(y, k);
      ZeroProduct(z, k);
      Vector3d(x * k, y * k, z * k)
    }

    function SqrMagnitude(): (r: NonNegReal)
      ensures x == 0.0 && y == 0.0 && z == 0.0 ==> r == 0.0
    {
      ProductNonNeg(x, x);
      ProductNonNeg(y, y);
      ProductNonNeg(z, z);
      x * x + y * y + z * z
    }

    /** The vector with its `y` component dropped: its part in the x/z plane. */
    function Planar(): (r: Vector3d)
      ensures r.y == 0.0 && r.x == x && r.z == z
    {
      Vector3d(x, 0.0, z)
    }
  }

  lemma ZeroProduct(a: real, b: real)
    ensures a == 0.0 ==> a * b == 0.0
  {
  }

  /** Two factors of the same sign have a non-negative product. */
  lemma ProductNonNeg(a: real, b: real)
    ensures (a >= 0.0 && b >= 0.0) || (a <= 0.0 && b <= 0.0) ==> a * b >= 0.0
  {
    if a < 0.0 {
      assert a * b == (-a) * (-b);
    }
  }

  /**
    The square root and power functions of `System.Math`, left abstract. The
    square root is only ever applied to non-negative arguments and yields a
    non-negative result, which is all the model relies on; facts about `Pow`
    are stated where a property needs them.
   */
  datatype Numerics = Numerics(sqrt: NonNegReal -> NonNegReal, pow: (real, real) -> real) {

    /** `Vector3d.magnitude`. */
    function Magnitude(v: Vector3d): (r: NonNegReal)
      ensures SqrtOfZeroIsZero() && v == Vector3d(0.0, 0.0, 0.0) ==> r == 0.0
    {
      sqrt(v.SqrMagnitude())
    }

    predicate SqrtOfZeroIsZero() {
      sqrt(0.0) == 0.0
    }

    /** `Math.Pow(1, p) == 1` for every exponent. */
    ghost predicate PowOfOneIsOne() {
      forall p: real :: pow(1.0, p) == 1.0
    }
  }
}
